=== FILE: README.md ===
# deckhand core, modelled in Dafny

deckhand drives a Stream Deck from a directory tree. A deck holds pages, one per
sub-directory, and a page holds buttons keyed by index. A page may have a helper script.
The helper's standard output is read line by line:
- blank and `#` lines are skipped;
- `@clear`, `@preserve` and `@debug` are directives;
- a line `index.path = value` sets a property of a button, creating the button when needed.

A button takes its fields from the files in its directory:
- `color`, `fill`, `text`, `action`, `font` and `image`;
- an executable file, which becomes the action.

Pressing a button dispatches its evaluated action: `shell:<command>` runs a command and
`page:<name>` switches the deck's page. The button is then synced again.

This project models that logic with immutable records and pure functions:

| module | file | what |
|---|---|---|
| `Wrappers` | wrappers.dfy | `Option` and `Outcome` (success or an error message) |
| `Text` | text.dfy | the Go string helpers used: `TrimSpace`, `Split`/`Join`, `SplitPair` (first separator), `SplitPairTrailing` (last separator), ASCII `ToLower`, decimal `ParseInt`/`FormatInt` |
| `GoLiteral` | goliteral.dfy | the unescaping of a helper value as a Go double-quoted literal (`strconv.Unquote`, then `constant.StringVal`) |
| `Buttons` | buttons.dfy | the button record, its defaults, the file sync, the `isReady` guard and the press dispatch |
| `HelperOutput` | helper_output.dfy | `Page.Clear` and the helper-output interpreter, a fold of one step per line over `map<int, Button>` |
| `Pages` | pages.dfy | `Page.Sync`, `Page.Render`, `RunHelper`, `shouldSync`, `syncData`, `setDataFromArgLine` |
| `Decks` | decks.dfy | geometry, `GetPage`/`CurrentPage`, `Deck.Sync`, and the render and press routing |

Everything the code reads from outside is a parameter. Pages take a `World` of functions:
- template evaluation (`Some(output)` or `None` for a template error);
- font loading;
- each button directory's `state` line and glob listing;
- the helper script's result;
- the data-source fetch results;
- the clock.

The deck adds its directory listing and the shell command results (`DeckWorld`).
Go pointers become flags:
- `Button.onPage` says the page back-reference is set;
- `Page.attached` says the deck pointer is set;
- `Deck.hasDevice` says a device is open.

One behaviour of the code is easy to misread:
- `@preserve` has no effect. The flag `preserveExisting` is declared inside the
  per-line loop (page.go:198), and the directive line ends with `continue`
  (page.go:225). So the flag is false again on every assignment line, and the skip at
  page.go:246-248 never fires (`HelperOutput.PreserveIsInert`).

## Model

| member | source | states |
|---|---|---|
| Text.TrimSpace | page.go:199 | the result is the input with only leading and trailing white space removed: an infix with nothing but white space before and after it, itself without surrounding white space; it is empty exactly when the input is all white space |
| Text.TrimSpaceIdempotent | page.go:200 | trimming twice is trimming once |
| Text.TrimSpaceKeepsHead | page.go:199-201 | a line that starts with a character other than white space still starts with it once trimmed, so a `#` line stays a comment |
| Text.JoinSplit | page.go:197 | joining the pieces of `strings.Split` with the separator gives the text back |
| Text.Split | page.go:197 | `strings.Split`: at least one piece, none holding the separator; with `Join` it round-trips both ways |
| Text.Join | page.go:261 | `strings.Join`: no pieces give "", otherwise the length is the pieces' total plus one separator between each two, the first piece leads and the separator follows it; its inverse is `strings.Split`, by Text.JoinSplit and Text.SplitJoin |
| Text.SplitJoin | page.go:229 | splitting a join of separator-free pieces gives the pieces back |
| Text.SplitPair | page.go:205-208 | the first part has no separator; with a separator the text is first part, separator, rest; without one the rest is empty |
| Text.SplitPairOfGlued | page.go:228 | `a + sep + b` with no separator in `a` splits into exactly `a` and `b` |
| Text.SplitPairTrailing | button.go:310 | the last part has no separator; without a separator the whole text is the last part |
| Text.SplitPairTrailingOfGlued | button.go:310 | `a + sep + b` with no separator in `b` splits into exactly `a` and `b` |
| Text.SplitPairTrimSpace | page.go:228 | the key has no separator and both halves have no surrounding white space; without a separator the key is the whole text trimmed and the value empty |
| Text.SplitPairTrimSpaceOfGlued | page.go:387 | `a + sep + b` with no separator in `a` splits into `a` and `b`, each trimmed |
| Text.SplitPiecesBySplitPair | button.go:340 | the first two pieces of a split are the two parts of the first-separator split |
| Text.JoinTailIsSplitPairRest | page.go:261 | the pieces after the first, joined again, are the text after the first separator |
| Text.ToLower | page.go:210 | each character is lower-cased in place, the length kept |
| Text.ToLowerIdempotent | page.go:210 | lower-casing twice is lower-casing once |
| Text.ParseInt | page.go:230 | `typeutil.Int` on the first key segment: a decimal with an optional sign; anything else is 0; unsigned digits are never negative |
| Text.ParseFormatRoundTrip | page.go:131 | the decimal form of an integer parses back to that integer |
| GoLiteral.UnquoteEscape | page.go:252-258 | every string, escaped into a literal body, unescapes back to itself |
| GoLiteral.Unquote | page.go:250-257 | `strconv.Unquote` of a double-quoted body: a valid body unescapes to a text no longer than itself; it inverts escaping for every string (with UnquoteEscape) |
| GoLiteral.UnquotePlain | page.go:252-258 | text without quote, backslash or newline unescapes to itself |
| GoLiteral.StringVal | page.go:252-258 | the unescaped text of a valid literal, and the empty string for an invalid one |
| GoLiteral.EscapeSequence | page.go:252-258 | `\n`, `\\` and `\"` denote newline, backslash and quote; `\'` is refused inside double quotes |
| GoLiteral.BackslashNIsNewline | page.go:252-258 | a literal backslash-n in a value becomes a line break |
| GoLiteral.BareQuoteEmpties | page.go:252-258 | a bare double quote makes the literal invalid, so the value is empty |
| Buttons.NewButton | button.go:69-76 | a new button has its index and page link set, is neither auto nor sticky, and every other field is empty: style, text, action, state, image, cached evaluations, font cache and properties |
| Buttons.WithDefaults | button.go:52-55 | each of fill, color, font name and font size takes `#000000`, `#FFFFFF`, `monospace` or 64 exactly when it holds its zero value; nothing else changes |
| Buttons.WithDefaultsIdempotent | button.go:277 | after the defaults every styled field is set, and applying them again changes nothing |
| Buttons.WithDefaultsKeepsStyled | button.go:300 | a button whose styled fields are all set is left alone by the defaults |
| Buttons.SetProperty | page.go:260-263 | the value is recorded under the path; index, flags, fields and cached values are untouched |
| Buttons.Reset | button.go:293-300 | image, text and action are cleared and the four styled fields hold their defaults; identity and state are kept |
| Buttons.SyncState | button.go:255-271 | the state is the trimmed first line of the state file or empty; its evaluation is trimmed, and empty on a template error rather than stale |
| Buttons.Regen | button.go:156-199 | action and text are evaluated, empty on a template error rather than stale; a font is loaded only when none is cached and a name is set |
| Buttons.FirstLine | button.go:315 | the result is the content up to its first line break: a prefix without a line break, followed in the content by a line break when there is one, and the whole content when there is none |
| Buttons.FirstLineOfGlued | button.go:315 | a line followed by a line break and anything else reads back as that line |
| Buttons.BaseName | button.go:309 | the base name of a path holds no slash; with BaseNameOfPath it is the text after the last slash |
| Buttons.PropertyOf | button.go:309-310 | the property a file names holds no underscore; with the two path lemmas it is the lower-cased text after the last underscore |
| Buttons.BaseNameOfPath | button.go:309 | the base name of `<dir>/<base>` is `base` |
| Buttons.PropertyOfStemmedPath | button.go:309-310 | a file `<dir>/<stem>_<Name>` names the property `<name>` in lower case |
| Buttons.PropertyOfBarePath | button.go:309-310 | a file `<dir>/<Name>` without an underscore names the property `<name>` in lower case |
| Buttons.SetImage | button.go:211-231 | a button that is not ready is untouched; a ready one loses its image, then takes the file's when it decodes and reports an error when it does not |
| Buttons.ApplyFontSpec | button.go:338-355 | a non-blank first `:` segment sets the font name and drops the cached family; a positive second segment sets the size; otherwise they are kept |
| Buttons.StyledValue | button.go:313-326 | a color or fill file contributes only a non-blank trimmed first line |
| Buttons.ApplyField | button.go:312-366 | color and fill change only for a non-blank value; text and action are assigned even when blank; a `font` file applies ApplyFontSpec to its first line; color, fill, text and font files keep the action; only a font file touches the font name, size or cached family; an unknown property sets the action to the path only for an executable file; identity, state and image are kept |
| Buttons.ApplyFile | button.go:304-366 | empty files are skipped; an image file changes only the image; a font file applies ApplyFontSpec to its first line; color and fill change only for a non-blank value; text and action are assigned even when blank; every other file keeps the action unless it is an executable with an unknown property; only a font file touches the font fields; the step fails exactly on an image a ready button cannot decode |
| Buttons.SomeImageFailsCons | button.go:304-360 | a listing has a failing image exactly when its head is one or its tail has one |
| Buttons.ApplyFiles | button.go:304-367 | the loop fails exactly when some file is an image that fails to load, and keeps the button's identity |
| Buttons.LastStyledFileWins | button.go:313-326 | the last color (or fill) file with a non-blank line decides the field; with none, the field keeps its earlier value |
| Buttons.Finish | button.go:276-288 | the deferred defaults and evaluation leave every styled field set and keep identity and content |
| Buttons.SyncFiles | button.go:290-372 | a glob error fails with the button unchanged; otherwise the outcome fails exactly when some image fails to load, and a button that is not ready ends without an image |
| Buttons.SyncButton | button.go:273-373 | after a sync the state comes from the state file, the styled fields are set, the identity is kept, and the outcome fails exactly on a glob error or an image that fails to load |
| Buttons.SyncWithoutColorFileIsDefault | button.go:290-300 | a directory without a color file leaves the default color |
| Buttons.Dispatch | button.go:382-405 | an empty action does nothing |
| Buttons.DispatchOfVerb | button.go:383-401 | `verb:arg` dispatches on the lower-cased verb with everything after the first colon as argument; `shell` needs an argument; unknown verbs do nothing; so `shell:a:b` runs the command `a:b` |
| Buttons.DispatchWithoutColon | button.go:383-398 | an action without a colon is a verb with an empty argument, so `shell` alone is an error |
| Buttons.IsReady | button.go:139-153 | a button is ready exactly when its page link, the page's deck link and the deck's device are all present |
| HelperOutput.Clear | page.go:282-295 | every index in `1..count` whose button is not sticky gets a fresh auto button at that index; sticky buttons and keys outside the range are untouched |
| HelperOutput.ClearIdempotent | page.go:282-295 | clearing twice is clearing once |
| HelperOutput.Classify | page.go:199-228 | an all-space line and a line whose trimmed form starts with `#` are skipped, and an assignment key holds no `=` |
| HelperOutput.ClassifyTrims | page.go:199 | a line and its trimmed form are read the same way |
| HelperOutput.CommentIgnored | page.go:201-202 | a line starting with `#` is skipped whatever follows, and leaves the map unchanged |
| HelperOutput.ClassifyDirectiveOf | page.go:203-210 | `@word rest` is the directive named by the lower-cased word, with the rest as its argument |
| HelperOutput.ClassifyWord | page.go:204-210 | `@word` is the directive named by the lower-cased word |
| HelperOutput.ClassifyAssignment | page.go:228 | a key and a value joined by `=` read back as that key and value |
| HelperOutput.Assign | page.go:228-264 | the button at the first key segment's integer exists afterwards; a new one is auto and not sticky; an existing one keeps its flags, index, content, cached evaluations and font cache; either one's style is exactly the defaults applied to what it had (a new one: the defaults), so non-zero style fields are kept; the unescaped value is stored under the rest of the key; no other button changes |
| HelperOutput.AssignStores | page.go:252-263 | after an assignment the named property holds the unescaped value |
| HelperOutput.Step | page.go:197-266 | no line removes a button |
| HelperOutput.StepAssignment | page.go:228-264 | an assignment line with a non-empty key acts as `Assign` |
| HelperOutput.Run | page.go:197 | the buttons present before the output are present after it |
| HelperOutput.Interpret | page.go:197-266 | the helper's output never removes a button and never changes which buttons are sticky |
| HelperOutput.RunAppend | page.go:197 | lines are applied in order: two batches run as the first, then the second on its result |
| HelperOutput.InertStep | page.go:200-225 | blank, `#`, unknown-directive and empty-key lines leave the map unchanged |
| HelperOutput.InertRun | page.go:200-225 | output made only of such lines leaves the map unchanged |
| HelperOutput.DropInertLine | page.go:200-225 | removing such a line from anywhere in the output changes nothing |
| HelperOutput.ClearSplitsTheRun | page.go:212-214 | `@clear` acts on what the earlier lines built, and only the later lines act on its result |
| HelperOutput.DirectiveIgnoresCase | page.go:210-214 | `@clear` in any letter case clears; every other directive word leaves the map unchanged |
| HelperOutput.PreserveIsInert | page.go:198-248 | `@preserve` in any letter case has no effect, so later assignments still apply |
| HelperOutput.StepSetsMultiLineValue | page.go:228-263 | the line `n.prop=a\nb` gives button `n` the property `prop` holding `a`, a line break, `b` |
| HelperOutput.HelperSetsMultiLineValue | page.go:197-263 | helper output made of the line `n.prop=a\nb` gives button `n` the property `prop` holding `a`, a line break, `b` |
| HelperOutput.ClearThenSetsMultiLineValue | page.go:212-263 | after an `@clear` in any letter case the same line lands on the fresh button just the same |
| HelperOutput.StickyKeys | page.go:284 | exactly the indices of the sticky buttons |
| HelperOutput.StepKeepsStickyKeys | page.go:228-295 | no line makes a button sticky or unsticks one |
| HelperOutput.RunKeepsStickyKeys | page.go:197-266 | the sticky set is the same before and after any output |
| HelperOutput.StepKeepsStickyButton | page.go:228-295 | one line keeps a sticky button, still sticky, at its index and with its auto flag |
| HelperOutput.RunKeepsSticky | page.go:284-285 | a sticky button stays, sticky, at its index and with its auto flag, through any output |
| Pages.NewPage | deck.go:124-127 | a page the deck builds has only its name and deck link: no buttons, helper, data sources or data, a zero refresh interval, and neither latch set nor sync time recorded |
| Pages.ShouldSync | page.go:107-117 | a page never synced is due; a synced page is due only once a positive refresh interval has strictly passed (its partners are the three lemmas below) |
| Pages.NoResyncWithinInterval | page.go:90-105 | a render that syncs a page records the time; a later render within the refresh interval does not sync again, keeps that time, the data and the settings, and only redraws the buttons |
| Pages.ResyncAfterInterval | page.go:90-96 | once a positive refresh interval has strictly passed since a render synced the page, the next render syncs it again, records the new time and passes |
| Pages.ShouldSyncMonotone | page.go:107-117 | once due, a sync stays due |
| Pages.Doables | page.go:35-53 | the HTTP sources, then the command sources; literal sources are not requests |
| Pages.EffectiveKey | page.go:131 | the request's id, or `data<i>` when that is empty |
| Pages.FallbackKeysDistinct | page.go:131 | two requests without an id never share a key |
| Pages.FetchFrom | page.go:128-138 | the loop passes exactly when every request succeeds; keys no request writes keep their values; no key is removed |
| Pages.FetchFailureReported | page.go:128-138 | a failed loop reports its first failing request `j` as `request <j>: <error>`, every earlier request having succeeded |
| Pages.LastWriteWins | page.go:128-138 | when all requests succeed, the last one writing a key decides its value |
| Pages.SyncData | page.go:119-141 | the deck's data sources are in the page data, kept unless a request overwrites them, and the sync passes exactly when every request succeeds |
| Pages.SetPair | page.go:387-391 | a pair with a non-empty trimmed key sets that key to the value function's result; an empty key changes nothing |
| Pages.SetPairs | page.go:386-393 | the keys set are exactly the non-empty trimmed keys of the pairs; other keys keep their values |
| Pages.SetPairsAppend | page.go:386-393 | pairs apply in order |
| Pages.LastPairWins | page.go:386-393 | a key holds what its last pair's value function gave it |
| Pages.SetDataFromArgLine | page.go:378-395 | without a value function nothing is set; with one the keys set are exactly the non-empty trimmed keys of the `;`-separated pairs of the trimmed argument, and every other key keeps its value |
| Pages.ArgLineLastPairWins | page.go:384-391 | for an argument written as pairs joined by `;`, a key holds the value function's result for the last pair naming it |
| Pages.RunHelper | page.go:143-280 | without a helper name, while it runs, or without a non-empty script nothing happens; otherwise the data is synced and the buttons become the interpreted output; on any error the buttons are unchanged; settings and flags are kept |
| Pages.SyncSlot | page.go:316-319 | a button's own sync keeps its identity and leaves it styled |
| Pages.Slot | page.go:311-317 | the existing button, or a fresh auto button, pointed at its index |
| Pages.SyncSlots | page.go:310-320 | the keys afterwards are the old keys and the visited indices |
| Pages.SyncSlotsFrame | page.go:310-320 | slots the loop does not visit keep their buttons |
| Pages.SyncSlotsContent | page.go:310-320 | every visited slot holds the button that slot had before the loop, synced |
| Pages.SlotSynced | page.go:311-319 | the synced slot is a styled button at its index; an existing button keeps its flags and properties, and a gap becomes an auto button that is not sticky |
| Pages.FillSlots | page.go:310-320 | the keys are the old ones plus `1..count`; each slot holds its own button (or a fresh auto one) after that button's sync; buttons outside `1..count` are unchanged |
| Pages.FillSlotsKeepsButtons | page.go:310-320 | every slot holds a styled button at its index; every button keeps its sticky and auto flags and its properties; gaps become auto buttons that are not sticky |
| Pages.Sync | page.go:297-324 | a page without a deck fails with `cannot sync page: no deck specified`; otherwise every slot `1..count` holds a styled button at its index, only gaps are new auto buttons, and the sync time is recorded |
| Pages.SyncKeepsButtons | page.go:297-320 | the buttons the helper left are kept by the sync: outside `1..count` unchanged, inside with their properties, and each slot holds its own button after that button's sync |
| Pages.MarkSticky | page.go:79-81 | every button, and only the sticky flag of each, changes |
| Pages.Redraw | page.go:98-102 | every button is pointed at its key and page; its text and action are evaluated afresh with "" on a template error; its font is loaded when none is cached and a name is set; style, content, flags, properties and evaluated state are kept |
| Pages.FirstHelp | page.go:78-88 | the help latch is set afterwards, and a page already helped is unchanged |
| Pages.Render | page.go:75-105 | the help latch is set; the render fails exactly when a needed sync fails; a synced page records the time and sets its sync latch; otherwise the sync time is kept |
| Pages.HelperKeepsStickyKeys | page.go:143-266 | running the helper never changes the sticky set |
| Pages.RedrawKeepsStickyKeys | page.go:98-102 | redrawing never changes which buttons are sticky |
| Pages.SyncKeepsStickyKeys | page.go:297-320 | a page sync never changes the sticky set |
| Pages.FirstHelpPins | page.go:78-88 | the first render pins every existing button before the helper runs |
| Pages.RenderKeepsFirstHelpPins | page.go:90-102 | sync and redraw keep the pinned set |
| Pages.FirstRenderPinsButtons | page.go:75-105 | after the first render exactly the buttons the page had before are sticky |
| Pages.LaterRenderKeepsPins | page.go:75-105 | after the first render the pinned set never changes |
| Pages.FreshPageSync | page.go:297-324 | a freshly built page syncs to exactly the slots `1..count`, each a non-sticky auto button at its index |
| Decks.Geometry | deck.go:58-62 | 3 rows and 5 columns when the model name is `streamdeck (original v2)` in any letter case, and 0 by 0 otherwise |
| Decks.NewDeck | deck.go:43-68 | the deck is named `default`, has no page selected, keeps the helpers and sources given, takes the geometry of its model with rows times columns buttons, and is synced: a read error is returned with no pages, otherwise the pages are built from the listing |
| Decks.NewDeckCount | deck.go:58-64 | the count is 15 exactly when the model name is `streamdeck (original v2)` in any letter case, and 0 otherwise |
| Decks.FindPage | deck.go:86-94 | the position of the first page with the name, or none when no page has it |
| Decks.GetPageFirstMatch | deck.go:86-94 | the page found is the first in page order with the name; none exactly when no page has it |
| Decks.GetPage | deck.go:86-94 | none exactly when no page has the name; otherwise a page of the deck with that name |
| Decks.CurrentPage | deck.go:96-108 | the page named by the deck's selection, or the one named `_` when nothing is selected |
| Decks.CurrentName | deck.go:96-101 | the selected page's name, never empty |
| Decks.DirNames | deck.go:122-129 | a name is listed exactly when some directory entry has it; one entry gives its name when it is a directory and nothing otherwise |
| Decks.DirNamesAppend | deck.go:122-129 | the names of a listing are those of its first part followed by those of the rest, so they are the directory names in listing order, once per entry |
| Decks.BuildPages | deck.go:120-136 | one synced fresh page per directory name, in listing order |
| Decks.Sync | deck.go:118-162 | a read error is returned and changes nothing; otherwise the pages are rebuilt from the listing and the sync passes |
| Decks.SyncBuildsPages | deck.go:119-136 | after a sync each page is named after a directory, in order, points back to the deck, and holds exactly the slots `1..count` as auto buttons at their index |
| Decks.SyncIdempotent | deck.go:118-136 | syncing twice is syncing once |
| Decks.Render | deck.go:110-116 | without a current page nothing happens; otherwise that page becomes exactly what `Page.Render` makes of it with the deck as host (helped, synced, settings kept) and the render passes; no other page and nothing else of the deck changes |
| Decks.RenderPinsCurrentPage | deck.go:110-116 | the first render of the current page leaves exactly its earlier buttons sticky, and a later render keeps that set |
| Decks.Resync | button.go:380 | only the pressed button changes, keeping its identity and ending styled |
| Decks.Trigger | deck.go:236-242 | a press that reaches no ready button on the current page does nothing |
| Decks.Reaches | deck.go:236-242 | a press reaches a button when the current page exists, holds that index, and the button is ready (button.go:376-378) |
| Decks.TriggerAlwaysResyncs | button.go:375-382 | a press on a ready button that does not switch pages always ends with that button synced again |
| Decks.TriggerShell | button.go:389-398 | `shell:<command>` returns the command's result; `shell` alone is an error; an empty or unknown action passes |
| Decks.TriggerSwitchesPage | button.go:399-401 | `page:X` selects `X` and returns the deck sync's result |
| Decks.TriggerRebuildsPages | button.go:399-401 | when the deck directory can be read, `page:X` leaves the deck holding freshly built pages |

## Left out

- Drawing: the canvas, fonts as glyph sources, colour parsing, PNG encoding and the device
  image calls are not modelled. A font load is a boolean parameter and an image is its
  path plus a flag saying whether it decodes.
- Subprocesses and temporary files: the helper script, its data file, its environment and
  its one-second timeout are replaced by a `World.runHelper` result. Shell commands run by
  a press are a `DeckWorld.shell` result. Their effects on files are not modelled: the
  resync after a press reads the same world as before.
- Template evaluation (`diecast.EvalInline`) is a parameter returning the output, or
  `None` for a template error.
- The filesystem: the `state` file line, the glob listing per state sub-directory and the
  deck directory listing are parameters.
- Buttons.SetProperty: kept uninterpreted, recording the value under its dotted path.
  `typeutil.Auto` and the deep assignment are not part of this model, so the value stays
  a string.
- Button overrides, state variants, icons and progress bars are not implemented in these
  files: `SetProperty` (page.go:260) and `_property` (page.go:343-348) are called but not
  defined in them, so there is no code to model.
- Text.ParseInt: `typeutil.Int` and `typeutil.Float` are modelled as a decimal integer
  parser giving 0 on anything else, and the font size is an integer.
- Text.ToLower: lower-cases ASCII letters only, not the full Unicode case mapping.
- GoLiteral.EscapeSequence: `\x` and octal escapes denote single bytes, modelled as the
  character with that code, not as raw bytes of a UTF-8 string.
- Text.SplitPairTrailing: the library function that implements it is not part of this model. It is
  assumed to split at the last separator and to give `("", s)` when there is none.
- Page data values are strings, `maputil.Set` is a flat key update, and HTTP and command
  data sources (data_http.go, data_shell.go) are a `World.fetch` result. That result is
  taken as independent of the page data, although `ShellConfig.Do` evaluates its arguments
  against that data (data_shell.go:29).
- `@debug` only logs, and is modelled as doing nothing.
- Log output and the debug dump (`Page.dump`) are not modelled.
- The errors that `log.AppendError` collects in `Page.Render` and `Deck.Sync` are dropped,
  as the code drops them (the result is never assigned).
- Pages.RunHelper: requires the deck link when the helper is engaged, because the code
  dereferences the deck pointer there and panics without it.
- Pages.Render: requires the deck link when the helper is engaged, as RunHelper does. On a page
  without a deck that needs no sync, the code's redraw calls `Button.Render`, which
  dereferences the deck (button.go:247) and panics when drawing yields an image. Drawing
  is not modelled, so the model redraws and passes there instead.
- Decks.Render: requires every page to be attached. Only the current page renders, and it
  needs its deck link as Pages.Render does; every page a deck builds has that link.
- Pages.ShouldSync: takes the refresh interval and times as integers;
  `typeutil.Duration` parsing is not modelled.
- The page fields `Defaults` and `HelperArgs` are not modelled: `Defaults` is never read
  by the code and the arguments only reach the helper's command line.
- Not modelled:
  - the file watcher and its re-syncs;
  - the render ticker and its concurrency;
  - the HTTP control plane and JSON marshalling;
  - opening the device and the press callback;
  - main.go.
- Decks.Trigger: passes the device's button index straight to the page's map, as the code
  does; whether that index is 0- or 1-based is outside this model.

=== FILE: buttons.dfy ===
/**
  One physical key: its declared fields, the values cached from template evaluation,
  the per-directory file sync that assigns the fields, and the verb dispatch a press
  performs. Drawing is not modelled; template evaluation and font loading are
  supplied by the caller as functions.
*/
module Buttons {
  import opened Wrappers
  import opened Text

  const DefaultFill: string := "#000000"
  const DefaultColor: string := "#FFFFFF"
  const DefaultFontName: string := "monospace"
  const DefaultFontSize: int := 64

  /**
    A button. `image` holds the path of the decoded image file, `fontLoaded` says
    whether a font family is cached, `onPage` whether the page back-reference is set,
    and `props` records the property assignments made through `SetProperty`.
  */
  datatype Button = Button(
    index: int,
    fill: string,
    color: string,
    fontName: string,
    fontSize: int,
    text: string,
    action: string,
    state: string,
    auto: bool,
    sticky: bool,
    evaluatedText: string,
    evaluatedAction: string,
    evaluatedState: string,
    image: Option<string>,
    fontLoaded: bool,
    onPage: bool,
    props: map<string, string>)

  /** `NewButton(page, i)`: every field empty except the index and the page link. */
  function NewButton(i: int): (b: Button)
    ensures b.index == i && b.onPage && !b.auto && !b.sticky
    ensures b.fill == "" && b.color == "" && b.fontName == "" && b.fontSize == 0
    ensures b.text == "" && b.action == "" && b.state == "" && b.image.None? && b.props == map[]
    ensures b.evaluatedText == "" && b.evaluatedAction == "" && b.evaluatedState == "" && !b.fontLoaded
  {
    Button(i, "", "", "", 0, "", "", "", false, false, "", "", "", None, false, true, map[])
  }

  /** The button created to fill a gap: a new button flagged `auto`. */
  function NewAutoButton(i: int): (b: Button)
    ensures b.index == i && b.auto && !b.sticky && b.props == map[]
  {
    NewButton(i).(auto := true)
  }

  /** The fields no file sync, default or template evaluation touches. */
  predicate SameIdentity(a: Button, b: Button) {
    a.index == b.index && a.auto == b.auto && a.sticky == b.sticky
    && a.onPage == b.onPage && a.props == b.props
  }

  /** The declared fields other than the four styled ones. */
  predicate SameContent(a: Button, b: Button) {
    a.text == b.text && a.action == b.action && a.state == b.state && a.image == b.image
  }

  /** The values cached from template evaluation. */
  predicate SameEvaluated(a: Button, b: Button) {
    a.evaluatedText == b.evaluatedText && a.evaluatedAction == b.evaluatedAction
    && a.evaluatedState == b.evaluatedState
  }

  /** The four styled fields. */
  predicate SameStyle(a: Button, b: Button) {
    a.fill == b.fill && a.color == b.color && a.fontName == b.fontName && a.fontSize == b.fontSize
  }

  /**
    `defaults.SetDefaults`: each of the four styled fields takes its tagged default
    when it holds its zero value, and keeps its value otherwise.
  */
  function WithDefaults(b: Button): (r: Button)
    ensures b.fill != "" ==> r.fill == b.fill
    ensures b.color != "" ==> r.color == b.color
    ensures b.fontName != "" ==> r.fontName == b.fontName
    ensures b.fontSize != 0 ==> r.fontSize == b.fontSize
    ensures b.fill == "" ==> r.fill == DefaultFill
    ensures b.color == "" ==> r.color == DefaultColor
    ensures b.fontName == "" ==> r.fontName == DefaultFontName
    ensures b.fontSize == 0 ==> r.fontSize == DefaultFontSize
    ensures SameIdentity(r, b) && SameContent(r, b) && SameEvaluated(r, b) && r.fontLoaded == b.fontLoaded
  {
    b.(fill := if b.fill == "" then DefaultFill else b.fill,
       color := if b.color == "" then DefaultColor else b.color,
       fontName := if b.fontName == "" then DefaultFontName else b.fontName,
       fontSize := if b.fontSize == 0 then DefaultFontSize else b.fontSize)
  }

  /** After defaults are applied no styled field holds its zero value. */
  predicate Styled(b: Button) {
    b.fill != "" && b.color != "" && b.fontName != "" && b.fontSize != 0
  }

  /** Applying the defaults a second time changes nothing. */
  lemma WithDefaultsIdempotent(b: Button)
    ensures Styled(WithDefaults(b))
    ensures WithDefaults(WithDefaults(b)) == WithDefaults(b)
  {
  }

  /** A button whose styled fields are all set is left as it is by the defaults. */
  lemma WithDefaultsKeepsStyled(b: Button)
    requires Styled(b)
    ensures WithDefaults(b) == b
  {
  }

  /** `SetProperty(path, value)`, kept uninterpreted: the assignment is recorded under its path. */
  function SetProperty(b: Button, path: string, value: string): (r: Button)
    ensures r.props == b.props[path := value]
    ensures path in r.props && r.props[path] == value
    ensures r.index == b.index && r.auto == b.auto && r.sticky == b.sticky && r.onPage == b.onPage
    ensures SameStyle(r, b) && SameContent(r, b) && SameEvaluated(r, b) && r.fontLoaded == b.fontLoaded
  {
    b.(props := b.props[path := value])
  }

  /**
    The reset at the start of a file sync: image, text and action are cleared and the
    styled fields are zeroed, then the defaults are applied.
  */
  function Reset(b: Button): (r: Button)
    ensures r.text == "" && r.action == "" && r.image.None?
    ensures r.fill == DefaultFill && r.color == DefaultColor
    ensures r.fontName == DefaultFontName && r.fontSize == DefaultFontSize
    ensures SameIdentity(r, b) && r.state == b.state && r.fontLoaded == b.fontLoaded
    ensures r.evaluatedText == b.evaluatedText && r.evaluatedAction == b.evaluatedAction
    ensures r.evaluatedState == b.evaluatedState
  {
    WithDefaults(b.(image := None, color := "", fill := "", text := "", action := "",
                    fontName := "", fontSize := 0))
  }

  /**
    `syncState`: the state is the trimmed first line of the `state` file, or empty when
    it cannot be read; its evaluation is trimmed, and a template failure leaves it empty
    rather than keeping an earlier value.
  */
  function SyncState(b: Button, stateLine: Option<string>, eval: string -> Option<string>): (r: Button)
    ensures stateLine.None? ==> r.state == ""
    ensures stateLine.Some? ==> r.state == TrimSpace(stateLine.value)
    ensures eval(r.state).None? ==> r.evaluatedState == ""
    ensures eval(r.state).Some? ==> r.evaluatedState == TrimSpace(eval(r.state).value)
    ensures SameIdentity(r, b) && SameStyle(r, b) && r.fontLoaded == b.fontLoaded
    ensures r.text == b.text && r.action == b.action && r.image == b.image
    ensures r.evaluatedText == b.evaluatedText && r.evaluatedAction == b.evaluatedAction
  {
    var st := if stateLine.Some? then TrimSpace(stateLine.value) else "";
    var ev := match eval(st) case Some(out) => TrimSpace(out) case None => "";
    b.(state := st, evaluatedState := ev)
  }

  /**
    The non-drawing part of `regen`: the action and text are evaluated, a template
    failure giving an empty result rather than the previous one, and a font family is
    loaded when none is cached and a font name is set.
  */
  function Regen(b: Button, eval: string -> Option<string>, fontLoads: string -> bool): (r: Button)
    ensures eval(b.action).None? ==> r.evaluatedAction == ""
    ensures eval(b.action).Some? ==> r.evaluatedAction == eval(b.action).value
    ensures eval(b.text).None? ==> r.evaluatedText == ""
    ensures eval(b.text).Some? ==> r.evaluatedText == eval(b.text).value
    ensures b.fontLoaded ==> r.fontLoaded
    ensures !b.fontLoaded ==> (r.fontLoaded <==> b.fontName != "" && fontLoads(b.fontName))
    ensures SameIdentity(r, b) && SameStyle(r, b) && SameContent(r, b)
    ensures r.evaluatedState == b.evaluatedState
  {
    var b1 := b.(evaluatedAction := eval(b.action).GetOr(""), evaluatedText := eval(b.text).GetOr(""));
    if !b1.fontLoaded && b1.fontName != "" && fontLoads(b1.fontName) then b1.(fontLoaded := true) else b1
  }

  /**
    One entry of the button directory as the glob finds it: its path, whether it is a
    regular file, its content, whether it is executable, and whether it decodes as an image.
  */
  datatype FileEntry = FileEntry(path: string, isFile: bool, content: string, executable: bool, decodes: bool)

  /**
    What the sync reads for one button: the `state` file's first line, and the glob result
    as a function of the freshly evaluated state, since the button's directory moves into
    the state's sub-directory when one exists. `None` is a glob error.
  */
  datatype ButtonDir = ButtonDir(stateLine: Option<string>, listing: string -> Option<seq<FileEntry>>)

  /** `fileutil.IsNonemptyFile`. */
  predicate IsNonEmptyFile(e: FileEntry) {
    e.isFile && |e.content| > 0
  }

  /** `fileutil.ReadFirstLine`: the content up to the first line break. */
  function FirstLine(content: string): (r: string)
    ensures '\n' !in r
    ensures |r| <= |content| && r == content[..|r|]
    ensures '\n' in content ==> |r| < |content| && content[|r|] == '\n'
    ensures '\n' !in content ==> r == content
  {
    var (line, rest) := SplitPair(content, '\n');
    assert '\n' in content ==> content == line + ['\n'] + rest;
    line
  }

  /** A line followed by a line break and anything else reads back as that line. */
  lemma FirstLineOfGlued(line: string, rest: string)
    requires '\n' !in line
    ensures FirstLine(line + "\n" + rest) == line
  {
    assert line + "\n" + rest == line + ['\n'] + rest;
    SplitPairOfGlued(line, '\n', rest);
  }

  /** `filepath.Base` of a glob match: the text after the last slash. */
  function BaseName(path: string): (r: string)
    ensures '/' !in r
  {
    SplitPairTrailing(path, '/').1
  }

  /** The property a file names: its lower-cased base name after the last underscore. */
  function PropertyOf(e: FileEntry): (r: string)
    ensures '_' !in r
  {
    SplitPairTrailing(ToLower(BaseName(e.path)), '_').1
  }

  lemma ToLowerConcat(a: string, b: string)
    ensures ToLower(a + b) == ToLower(a) + ToLower(b)
  {
  }

  lemma ToLowerKeepsAbsent(s: string, c: char)
    requires c !in s
    requires !('a' <= c <= 'z')
    ensures c !in ToLower(s)
  {
    forall i | 0 <= i < |s|
      ensures ToLower(s)[i] != c
    {
      assert s[i] != c;
    }
  }

  /** The base name of `<dir>/<base>`, for a base without a slash, is `base`. */
  lemma BaseNameOfPath(dir: string, base: string)
    requires '/' !in base
    ensures BaseName(dir + "/" + base) == base
  {
    assert dir + "/" + base == dir + ['/'] + base;
    SplitPairTrailingOfGlued(dir, '/', base);
  }

  /** Lower-casing goes through an underscore unchanged. */
  lemma ToLowerAroundUnderscore(stem: string, name: string)
    ensures ToLower(stem + "_" + name) == ToLower(stem) + "_" + ToLower(name)
  {
    ToLowerConcat(stem + "_", name);
    ToLowerConcat(stem, "_");
    assert ToLower("_") == "_";
  }

  /** A file `<dir>/<stem>_<Name>` names the property `<name>`, lower-cased. */
  lemma PropertyOfStemmedPath(dir: string, stem: string, name: string, e: FileEntry)
    requires '/' !in stem && '/' !in name && '_' !in name
    requires e.path == dir + "/" + stem + "_" + name
    ensures PropertyOf(e) == ToLower(name)
  {
    var base := stem + "_" + name;
    assert e.path == dir + "/" + base;
    BaseNameOfPath(dir, base);
    ToLowerAroundUnderscore(stem, name);
    ToLowerKeepsAbsent(name, '_');
    assert ToLower(stem) + "_" + ToLower(name) == ToLower(stem) + ['_'] + ToLower(name);
    SplitPairTrailingOfGlued(ToLower(stem), '_', ToLower(name));
  }

  /** A file `<dir>/<Name>` without an underscore names the property `<name>`, lower-cased. */
  lemma PropertyOfBarePath(dir: string, name: string, e: FileEntry)
    requires '/' !in name && '_' !in name
    requires e.path == dir + "/" + name
    ensures PropertyOf(e) == ToLower(name)
  {
    BaseNameOfPath(dir, name);
    ToLowerKeepsAbsent(name, '_');
  }

  /**
    `SetImage`: a button that is not ready keeps no image; a ready one loses its image,
    then takes the file's image when it decodes, and reports an error when it does not.
  */
  function SetImage(b: Button, e: FileEntry, ready: bool): (r: (Button, Outcome<string>))
    ensures !ready ==> r == (b, Pass)
    ensures ready && e.decodes ==> r == (b.(image := Some(e.path)), Pass)
    ensures ready && !e.decodes ==> r.0 == b.(image := None) && r.1.Fail?
  {
    if !ready then (b, Pass)
    else if e.decodes then (b.(image := Some(e.path)), Pass)
    else (b.(image := None), Fail("image: cannot decode " + e.path))
  }

  /**
    The `font` file: its first line is split on `:`; a non-empty first segment names the
    font (dropping the cached family), a positive second segment sets the size, and later
    segments are ignored. Stated through `SplitPair`, independently of the split.
  */
  function ApplyFontSpec(b: Button, line: string): (r: Button)
    ensures TrimSpace(SplitPair(line, ':').0) != "" ==>
              r.fontName == TrimSpace(SplitPair(line, ':').0) && !r.fontLoaded
    ensures TrimSpace(SplitPair(line, ':').0) == "" ==>
              r.fontName == b.fontName && r.fontLoaded == b.fontLoaded
    ensures ':' in line && ParseInt(TrimSpace(SplitPair(SplitPair(line, ':').1, ':').0)) > 0 ==>
              r.fontSize == ParseInt(TrimSpace(SplitPair(SplitPair(line, ':').1, ':').0))
    ensures !(':' in line && ParseInt(TrimSpace(SplitPair(SplitPair(line, ':').1, ':').0)) > 0) ==>
              r.fontSize == b.fontSize
    ensures SameIdentity(r, b) && SameContent(r, b) && SameEvaluated(r, b)
    ensures r.fill == b.fill && r.color == b.color
  {
    var segs := Split(line, ':');
    SplitPiecesBySplitPair(line, ':');
    var name := TrimSpace(segs[0]);
    var b1 := if name != "" then b.(fontName := name, fontLoaded := false) else b;
    if |segs| > 1 then
      var size := TrimSpace(segs[1]);
      if size != "" && ParseInt(size) > 0 then b1.(fontSize := ParseInt(size)) else b1
    else b1
  }

  /**
    The value a `color` or `fill` file contributes: its trimmed first line, when the
    file is non-empty, names that property, and the line is not blank.
  */
  function StyledValue(e: FileEntry, prop: string): (v: Option<string>)
    ensures v.Some? ==> v.value != "" && PropertyOf(e) == prop
  {
    if IsNonEmptyFile(e) && PropertyOf(e) == prop && TrimSpace(FirstLine(e.content)) != ""
    then Some(TrimSpace(FirstLine(e.content)))
    else None
  }

  /** True when this entry makes a ready button's sync stop with an image error. */
  predicate ImageFails(e: FileEntry, ready: bool) {
    ready && IsNonEmptyFile(e) && PropertyOf(e) == "image" && !e.decodes
  }

  /** The color or fill field, selected by its property name. */
  function StyleField(b: Button, prop: string): string
    requires prop == "color" || prop == "fill"
  {
    if prop == "color" then b.color else b.fill
  }

  /** The field a non-empty file other than an image assigns, chosen by the property it names. */
  function ApplyField(b: Button, e: FileEntry): (r: Button)
    requires IsNonEmptyFile(e) && PropertyOf(e) != "image"
    ensures SameIdentity(r, b) && SameEvaluated(r, b) && r.state == b.state && r.image == b.image
    ensures StyledValue(e, "color").Some? ==> r.color == StyledValue(e, "color").value
    ensures StyledValue(e, "color").None? ==> r.color == b.color
    ensures StyledValue(e, "fill").Some? ==> r.fill == StyledValue(e, "fill").value
    ensures StyledValue(e, "fill").None? ==> r.fill == b.fill
    ensures PropertyOf(e) == "text" ==> r.text == TrimSpace(e.content)
    ensures PropertyOf(e) != "text" ==> r.text == b.text
    ensures PropertyOf(e) == "action" ==> r.action == TrimSpace(FirstLine(e.content))
    ensures PropertyOf(e) in {"color", "fill", "text", "font"} ==> r.action == b.action
    ensures PropertyOf(e) !in {"color", "fill", "text", "action", "font"} ==>
              r.action == (if e.executable then e.path else b.action)
    ensures PropertyOf(e) == "font" ==> r == ApplyFontSpec(b, FirstLine(e.content))
    ensures PropertyOf(e) != "font" ==>
              r.fontName == b.fontName && r.fontSize == b.fontSize && r.fontLoaded == b.fontLoaded
  {
    var prop := PropertyOf(e);
    if prop == "color" || prop == "fill" then
      var v := TrimSpace(FirstLine(e.content));
      if v == "" then b else if prop == "color" then b.(color := v) else b.(fill := v)
    else if prop == "text" then b.(text := TrimSpace(e.content))
    else if prop == "action" then b.(action := TrimSpace(FirstLine(e.content)))
    else if prop == "font" then ApplyFontSpec(b, FirstLine(e.content))
    else if e.executable then b.(action := e.path)
    else b
  }

  /** The per-file step of `Sync`: one glob match assigns at most one property. */
  function ApplyFile(b: Button, e: FileEntry, ready: bool): (r: (Button, Outcome<string>))
    ensures SameIdentity(r.0, b) && r.0.state == b.state
    ensures r.0.evaluatedText == b.evaluatedText && r.0.evaluatedAction == b.evaluatedAction
    ensures r.0.evaluatedState == b.evaluatedState
    ensures !IsNonEmptyFile(e) ==> r == (b, Pass)
    ensures r.1.Fail? <==> ImageFails(e, ready)
    ensures StyledValue(e, "color").Some? ==> r.0.color == StyledValue(e, "color").value
    ensures StyledValue(e, "color").None? ==> r.0.color == b.color
    ensures StyledValue(e, "fill").Some? ==> r.0.fill == StyledValue(e, "fill").value
    ensures StyledValue(e, "fill").None? ==> r.0.fill == b.fill
    ensures IsNonEmptyFile(e) && PropertyOf(e) == "text" ==> r.0.text == TrimSpace(e.content)
    ensures !(IsNonEmptyFile(e) && PropertyOf(e) == "text") ==> r.0.text == b.text
    ensures IsNonEmptyFile(e) && PropertyOf(e) == "action" ==> r.0.action == TrimSpace(FirstLine(e.content))
    ensures IsNonEmptyFile(e) && PropertyOf(e) !in {"color", "fill", "text", "action", "font", "image"} ==>
              r.0.action == (if e.executable then e.path else b.action)
    ensures !(IsNonEmptyFile(e) && PropertyOf(e) !in {"color", "fill", "text", "font", "image"}) ==>
              r.0.action == b.action
    ensures IsNonEmptyFile(e) && PropertyOf(e) == "font" ==>
              r == (ApplyFontSpec(b, FirstLine(e.content)), Pass)
    ensures !(IsNonEmptyFile(e) && PropertyOf(e) == "font") ==>
              r.0.fontName == b.fontName && r.0.fontSize == b.fontSize && r.0.fontLoaded == b.fontLoaded
    ensures IsNonEmptyFile(e) && PropertyOf(e) == "image" ==> r.0 == b.(image := r.0.image)
    ensures !(IsNonEmptyFile(e) && PropertyOf(e) == "image") ==> r.0.image == b.image
    ensures !ready ==> r.0.image == b.image
  {
    if !IsNonEmptyFile(e) then (b, Pass)
    else if PropertyOf(e) == "image" then SetImage(b, e, ready)
    else (ApplyField(b, e), Pass)
  }

  /** Some entry of the listing is an image that a ready button fails to load. */
  predicate SomeImageFails(files: seq<FileEntry>, ready: bool) {
    exists j :: 0 <= j < |files| && ImageFails(files[j], ready)
  }

  /** A listing has a failing image when its head is one or its tail has one. */
  lemma SomeImageFailsCons(files: seq<FileEntry>, ready: bool)
    requires |files| > 0
    ensures SomeImageFails(files, ready) <==> ImageFails(files[0], ready) || SomeImageFails(files[1..], ready)
  {
    if SomeImageFails(files, ready) && !ImageFails(files[0], ready) {
      var j :| 0 <= j < |files| && ImageFails(files[j], ready);
      assert files[1..][j - 1] == files[j];
    }
    if SomeImageFails(files[1..], ready) {
      var j :| 0 <= j < |files[1..]| && ImageFails(files[1..][j], ready);
      assert files[j + 1] == files[1..][j];
    }
  }

  /** The loop over the glob matches, in order, returning at the first image error. */
  function ApplyFiles(b: Button, files: seq<FileEntry>, ready: bool): (r: (Button, Outcome<string>))
    ensures SameIdentity(r.0, b) && r.0.state == b.state
    ensures r.0.evaluatedState == b.evaluatedState
    ensures r.1.Fail? <==> SomeImageFails(files, ready)
    ensures !ready ==> r.0.image == b.image
    decreases |files|
  {
    if |files| == 0 then (b, Pass)
    else
      var (b1, o) := ApplyFile(b, files[0], ready);
      SomeImageFailsCons(files, ready);
      if o.Fail? then (b1, o) else ApplyFiles(b1, files[1..], ready)
  }

  /**
    The last color (or fill) file with a non-blank first line decides the field; with
    none, the field keeps the value it had before the loop.
  */
  lemma {:induction false} LastStyledFileWins(b: Button, files: seq<FileEntry>, ready: bool, prop: string, j: int)
    requires prop == "color" || prop == "fill"
    requires ApplyFiles(b, files, ready).1.Pass?
    requires -1 <= j < |files|
    requires j >= 0 ==> StyledValue(files[j], prop).Some?
    requires forall m :: j < m < |files| ==> StyledValue(files[m], prop).None?
    ensures j >= 0 ==> StyleField(ApplyFiles(b, files, ready).0, prop) == StyledValue(files[j], prop).value
    ensures j < 0 ==> StyleField(ApplyFiles(b, files, ready).0, prop) == StyleField(b, prop)
    decreases |files|
  {
    if |files| > 0 {
      var step := ApplyFile(b, files[0], ready);
      var b1 := step.0;
      var tail := files[1..];
      assert step.1.Fail? ==> ApplyFiles(b, files, ready) == step;
      assert ApplyFiles(b, files, ready) == ApplyFiles(b1, tail, ready);
      var j' := if j <= 0 then -1 else j - 1;
      assert forall m :: j' < m < |tail| ==> StyledValue(tail[m], prop).None? by {
        assert forall m :: j' < m < |tail| ==> tail[m] == files[m + 1];
      }
      assert j' >= 0 ==> tail[j'] == files[j];
      LastStyledFileWins(b1, tail, ready, prop, j');
    }
  }

  /** The deferred end of `Sync`: the defaults are applied, then the button is re-evaluated. */
  function Finish(b: Button, eval: string -> Option<string>, fontLoads: string -> bool): (r: Button)
    ensures SameIdentity(r, b) && Styled(r) && r.state == b.state && r.image == b.image
    ensures r.action == b.action && r.text == b.text
    ensures eval(r.action).None? ==> r.evaluatedAction == ""
    ensures eval(r.text).None? ==> r.evaluatedText == ""
  {
    Regen(WithDefaults(b), eval, fontLoads)
  }

  /**
    The glob part of `Sync`: a glob error stops it with the button as it was; otherwise
    the fields are reset and assigned from the matching files.
  */
  function SyncFiles(b: Button, listed: Option<seq<FileEntry>>, ready: bool): (r: (Button, Outcome<string>))
    ensures SameIdentity(r.0, b) && r.0.state == b.state && r.0.evaluatedState == b.evaluatedState
    ensures listed.None? ==> r == (b, Fail("syntax error in pattern"))
    ensures listed.Some? ==> (r.1.Fail? <==> SomeImageFails(listed.value, ready))
    ensures listed.Some? && !ready ==> r.0.image.None?
  {
    match listed
    case None => (b, Fail("syntax error in pattern"))
    case Some(files) => ApplyFiles(Reset(b), files, ready)
  }

  /**
    `Button.Sync`: the state is read, then — when the glob succeeds — the fields are
    reset and assigned from the matching files; the defaults and the evaluation run
    in every case, the glob or first image error being returned.
  */
  function SyncButton(b: Button, dir: ButtonDir, ready: bool,
                      eval: string -> Option<string>, fontLoads: string -> bool): (r: (Button, Outcome<string>))
    ensures SameIdentity(r.0, b)
    ensures Styled(r.0)
    ensures dir.stateLine.None? ==> r.0.state == ""
    ensures dir.stateLine.Some? ==> r.0.state == TrimSpace(dir.stateLine.value)
    ensures eval(r.0.state).None? ==> r.0.evaluatedState == ""
    ensures eval(r.0.state).Some? ==> r.0.evaluatedState == TrimSpace(eval(r.0.state).value)
    ensures var listed := dir.listing(r.0.evaluatedState);
            && (listed.None? ==> r.1.Fail?)
            && (listed.Some? ==> (r.1.Fail? <==> SomeImageFails(listed.value, ready)))
            && (listed.Some? && !ready ==> r.0.image.None?)
    ensures eval(r.0.action).None? ==> r.0.evaluatedAction == ""
    ensures eval(r.0.text).None? ==> r.0.evaluatedText == ""
  {
    var b1 := SyncState(b, dir.stateLine, eval);
    var (b2, o) := SyncFiles(b1, dir.listing(b1.evaluatedState), ready);
    (Finish(b2, eval, fontLoads), o)
  }

  /** A button whose directory has no color file ends its sync with the default color. */
  lemma SyncWithoutColorFileIsDefault(b: Button, files: seq<FileEntry>, stateLine: Option<string>, ready: bool,
                                      eval: string -> Option<string>, fontLoads: string -> bool)
    requires forall m :: 0 <= m < |files| ==> StyledValue(files[m], "color").None?
    requires forall m :: 0 <= m < |files| ==> !ImageFails(files[m], ready)
    ensures SyncButton(b, ButtonDir(stateLine, _ => Some(files)), ready, eval, fontLoads).0.color == DefaultColor
  {
    var b0 := Reset(SyncState(b, stateLine, eval));
    LastStyledFileWins(b0, files, ready, "color", -1);
  }

  /** `isReady`: the page, its deck and the deck's device are all present. */
  predicate IsReady(onPage: bool, deckAttached: bool, hasDevice: bool) {
    onPage && deckAttached && hasDevice
  }

  /** What a press asks for, decided from the evaluated action. */
  datatype Command = Idle | RunShell(command: string) | ShellWithoutArgument | SwitchPage(target: string)

  /**
    The dispatch of `Trigger`: the verb is the text before the first `:`, lower-cased,
    and the argument everything after it; `shell` needs an argument, `page` switches the
    deck's page, anything else (including an empty action) does nothing.
  */
  function Dispatch(evaluatedAction: string): (c: Command)
    ensures evaluatedAction == "" ==> c == Idle
  {
    if evaluatedAction == "" then Idle
    else
      var (verb, arg) := SplitPair(evaluatedAction, ':');
      var v := ToLower(verb);
      if v == "shell" then (if arg != "" then RunShell(arg) else ShellWithoutArgument)
      else if v == "page" then SwitchPage(arg)
      else Idle
  }

  /** An action `verb:arg` dispatches on the lower-cased verb with the whole rest as argument. */
  lemma DispatchOfVerb(verb: string, arg: string)
    requires ':' !in verb
    ensures ToLower(verb) == "shell" && arg != "" ==> Dispatch(verb + ":" + arg) == RunShell(arg)
    ensures ToLower(verb) == "shell" && arg == "" ==> Dispatch(verb + ":" + arg) == ShellWithoutArgument
    ensures ToLower(verb) == "page" ==> Dispatch(verb + ":" + arg) == SwitchPage(arg)
    ensures ToLower(verb) != "shell" && ToLower(verb) != "page" ==> Dispatch(verb + ":" + arg) == Idle
  {
    SplitPairOfGlued(verb, ':', arg);
    assert verb + ":" + arg == verb + [':'] + arg;
  }

  /** An action without a colon is a verb with an empty argument. */
  lemma DispatchWithoutColon(a: string)
    requires ':' !in a
    ensures ToLower(a) == "shell" ==> Dispatch(a) == ShellWithoutArgument
    ensures ToLower(a) == "page" ==> Dispatch(a) == SwitchPage("")
    ensures ToLower(a) != "shell" && ToLower(a) != "page" ==> Dispatch(a) == Idle
  {
  }
}

=== FILE: decks.dfy ===
/**
  The deck: its geometry, derived from the device model name; its pages, rebuilt from the
  deck directory on every sync; the current page, looked up by name with `_` as the
  default; and the routing of render passes and button presses to that page.
*/
module Decks {
  import opened Wrappers
  import opened Text
  import opened Buttons
  import opened HelperOutput
  import opened Pages

  /** One entry of the deck directory. */
  datatype DirEntry = DirEntry(name: string, isDir: bool)

  /** Reading the deck directory: its entries in listing order, or an error. */
  datatype Listing = Listed(entries: seq<DirEntry>) | ListFailed(error: string)

  /** What the deck reads from outside besides what its pages read: its directory and the shell. */
  datatype DeckWorld = DeckWorld(pages: World, pageDirs: Listing, shell: string -> Outcome<string>)

  /**
    A deck. `page` names the current page (empty for the default), `count` is the number of
    buttons, `hasDevice` says whether a device is open, and `helpers` and `sources` are the
    helper scripts and data sources its pages use.
  */
  datatype Deck = Deck(
    name: string,
    page: string,
    pages: seq<Page>,
    rows: int,
    cols: int,
    count: int,
    hasDevice: bool,
    helpers: map<string, string>,
    sources: map<string, string>)

  /** What the pages of `d` read from it. */
  function HostOf(d: Deck): Host {
    Host(d.count, d.hasDevice, d.helpers, d.sources)
  }

  /** The only device model whose layout is known. */
  const OriginalV2: string := "streamdeck (original v2)"

  /** The rows and columns of a device: 3 by 5 for the known model, in any letter case; none otherwise. */
  function Geometry(deviceName: string): (rc: (int, int))
    ensures rc.0 >= 0 && rc.1 >= 0
    ensures ToLower(deviceName) == OriginalV2 ==> rc == (3, 5)
    ensures ToLower(deviceName) != OriginalV2 ==> rc == (0, 0)
  {
    if ToLower(deviceName) == OriginalV2 then (3, 5) else (0, 0)
  }

  // ---------------------------------------------------------------------------
  // Page lookup

  /** The position of the first page with the given name, if any. */
  function FindPage(pages: seq<Page>, name: string): (r: Option<nat>)
    ensures r.None? <==> forall j :: 0 <= j < |pages| ==> pages[j].name != name
    ensures r.Some? ==> r.value < |pages| && pages[r.value].name == name
    ensures r.Some? ==> forall j :: 0 <= j < r.value ==> pages[j].name != name
    decreases |pages|
  {
    if |pages| == 0 then None
    else if pages[0].name == name then Some(0)
    else
      match FindPage(pages[1..], name)
      case None => None
      case Some(j) => Some(j + 1)
  }

  /** `GetPage`: the first page with the given name, in the deck's page order. */
  function GetPage(d: Deck, name: string): (r: Option<Page>)
    ensures r.None? <==> forall j :: 0 <= j < |d.pages| ==> d.pages[j].name != name
    ensures r.Some? ==> r.value in d.pages && r.value.name == name
  {
    match FindPage(d.pages, name)
    case None => None
    case Some(j) => Some(d.pages[j])
  }

  /** The name of the current page: the deck's `page`, or `_` when that is empty. */
  function CurrentName(d: Deck): (n: string)
    ensures n != ""
    ensures d.page != "" ==> n == d.page
  {
    if d.page != "" then d.page else "_"
  }

  /** `CurrentPage`. */
  function CurrentPage(d: Deck): (r: Option<Page>)
    ensures d.page == "" ==> r == GetPage(d, "_")
    ensures d.page != "" ==> r == GetPage(d, d.page)
  {
    GetPage(d, CurrentName(d))
  }

  /** Lookup finds a page exactly when one has the name, and then the first such page. */
  lemma GetPageFirstMatch(d: Deck, name: string)
    ensures GetPage(d, name).None? <==> forall j :: 0 <= j < |d.pages| ==> d.pages[j].name != name
    ensures GetPage(d, name).Some? ==>
              exists j :: 0 <= j < |d.pages| && d.pages[j] == GetPage(d, name).value && d.pages[j].name == name
                          && forall m :: 0 <= m < j ==> d.pages[m].name != name
  {
    match FindPage(d.pages, name)
    case None =>
    case Some(j) =>
      assert d.pages[j] == GetPage(d, name).value;
  }


  // ---------------------------------------------------------------------------
  // Sync

  /** The names of the directories among the entries, in listing order. */
  function DirNames(entries: seq<DirEntry>): (names: seq<string>)
    ensures |names| <= |entries|
    ensures forall n :: n in names <==> exists j :: 0 <= j < |entries| && entries[j].isDir && entries[j].name == n
    ensures |entries| == 1 && entries[0].isDir ==> names == [entries[0].name]
    ensures |entries| == 1 && !entries[0].isDir ==> names == []
    decreases |entries|
  {
    if |entries| == 0 then []
    else
      var rest := DirNames(entries[1..]);
      assert forall j :: 0 <= j < |entries[1..]| ==> entries[1..][j] == entries[j + 1];
      if entries[0].isDir then [entries[0].name] + rest else rest
  }

  /**
    The names of a listing are the names of its first part followed by those of the rest:
    with the one-entry cases above, the directories' names in listing order, each once per entry.
  */
  lemma {:induction false} DirNamesAppend(a: seq<DirEntry>, b: seq<DirEntry>)
    ensures DirNames(a + b) == DirNames(a) + DirNames(b)
    decreases |a|
  {
    if |a| == 0 {
      assert a + b == b;
    } else {
      assert (a + b)[0] == a[0];
      assert (a + b)[1..] == a[1..] + b;
      DirNamesAppend(a[1..], b);
    }
  }

  /** The synced pages the deck builds from its directory: one fresh page per directory. */
  function BuildPages(entries: seq<DirEntry>, host: Host, w: World): (pages: seq<Page>)
    ensures |pages| == |DirNames(entries)|
    ensures forall k :: 0 <= k < |pages| ==> pages[k] == Pages.Sync(NewPage(DirNames(entries)[k]), host, w).0
  {
    var names := DirNames(entries);
    seq(|names|, k requires 0 <= k < |names| => Pages.Sync(NewPage(names[k]), host, w).0)
  }

  /**
    `Deck.Sync`: when the deck directory can be read, the page list is replaced by one
    fresh page per sub-directory, in listing order, and each is synced; their errors are
    dropped. A read error is returned and changes nothing.
  */
  function Sync(d: Deck, w: DeckWorld): (r: (Deck, Outcome<string>))
    ensures w.pageDirs.ListFailed? ==> r == (d, Fail(w.pageDirs.error))
    ensures w.pageDirs.Listed? ==> r.1.Pass? && r.0 == d.(pages := BuildPages(w.pageDirs.entries, HostOf(d), w.pages))
  {
    match w.pageDirs
    case ListFailed(e) => (d, Fail(e))
    case Listed(entries) => (d.(pages := BuildPages(entries, HostOf(d), w.pages)), Pass)
  }

  /**
    After a successful sync every page is named after a directory, in listing order, and
    holds exactly the slots `1..count`, each a fresh auto button at its index.
  */
  lemma SyncBuildsPages(d: Deck, w: DeckWorld)
    requires w.pageDirs.Listed?
    ensures var r := Sync(d, w).0;
            && |r.pages| == |DirNames(w.pageDirs.entries)|
            && forall k :: 0 <= k < |r.pages| ==>
                 && r.pages[k].name == DirNames(w.pageDirs.entries)[k]
                 && r.pages[k].attached
                 && r.pages[k].buttons.Keys == InRange(d.count)
                 && (forall i :: i in r.pages[k].buttons ==> r.pages[k].buttons[i].index == i && r.pages[k].buttons[i].auto)
  {
    var r := Sync(d, w).0;
    forall k | 0 <= k < |r.pages|
      ensures r.pages[k].name == DirNames(w.pageDirs.entries)[k] && r.pages[k].attached
      ensures r.pages[k].buttons.Keys == InRange(d.count)
      ensures forall i :: i in r.pages[k].buttons ==> r.pages[k].buttons[i].index == i && r.pages[k].buttons[i].auto
    {
      FreshPageSync(DirNames(w.pageDirs.entries)[k], HostOf(d), w.pages);
    }
  }

  /** The page list depends only on the directory and the deck's settings, so syncing twice is syncing once. */
  lemma SyncIdempotent(d: Deck, w: DeckWorld)
    ensures Sync(Sync(d, w).0, w).0 == Sync(d, w).0
  {
  }

  /** `NewDeck` for an opened device: the geometry from its model name, then a sync. */
  function NewDeck(deviceName: string, helpers: map<string, string>, sources: map<string, string>, w: DeckWorld)
    : (r: (Deck, Outcome<string>))
    ensures r.0.name == "default" && r.0.page == "" && r.0.hasDevice
    ensures r.0.count == r.0.rows * r.0.cols
    ensures ToLower(deviceName) == OriginalV2 ==> r.0.rows == 3 && r.0.cols == 5
    ensures ToLower(deviceName) != OriginalV2 ==> r.0.rows == 0 && r.0.cols == 0
    ensures r.0.helpers == helpers && r.0.sources == sources
    ensures w.pageDirs.ListFailed? ==> r.0.pages == [] && r.1 == Fail(w.pageDirs.error)
    ensures w.pageDirs.Listed? ==> r.1.Pass? && r.0.pages == BuildPages(w.pageDirs.entries, HostOf(r.0), w.pages)
  {
    var (rows, cols) := Geometry(deviceName);
    Sync(Deck("default", "", [], rows, cols, rows * cols, true, helpers, sources), w)
  }

  /** The known model has 15 buttons whatever the letter case of its name; any other model has none. */
  lemma NewDeckCount(deviceName: string, helpers: map<string, string>, sources: map<string, string>, w: DeckWorld)
    ensures ToLower(deviceName) == OriginalV2 ==> NewDeck(deviceName, helpers, sources, w).0.count == 15
    ensures ToLower(deviceName) != OriginalV2 ==> NewDeck(deviceName, helpers, sources, w).0.count == 0
    ensures NewDeck(deviceName, helpers, sources, w).0.count == 15 <==> ToLower(deviceName) == OriginalV2
  {
  }

  // ---------------------------------------------------------------------------
  // Render and trigger

  /** Every page points back to a deck, as the pages a deck builds do. */
  predicate AllAttached(d: Deck) {
    forall j :: 0 <= j < |d.pages| ==> d.pages[j].attached
  }

  /**
    `Deck.Render`: the current page renders as `Page.Render` renders it, with the deck as
    its host, and passes, since every page is attached; without a current page nothing
    happens. No other page and nothing else of the deck changes.
  */
  function Render(d: Deck, w: DeckWorld): (r: (Deck, Outcome<string>))
    requires AllAttached(d)
    ensures FindPage(d.pages, CurrentName(d)).None? ==> r == (d, Pass)
    ensures r.0 == d.(pages := r.0.pages) && |r.0.pages| == |d.pages|
    ensures FindPage(d.pages, CurrentName(d)).Some? ==>
              var j := FindPage(d.pages, CurrentName(d)).value;
              && r.0.pages[j] == Pages.Render(d.pages[j], HostOf(d), w.pages).0
              && r.0.pages[j].everHelped && r.0.pages[j].everSynced && r.1.Pass?
              && SameSettings(r.0.pages[j], d.pages[j])
              && (forall m :: 0 <= m < |d.pages| && m != j ==> r.0.pages[m] == d.pages[m])
  {
    match FindPage(d.pages, CurrentName(d))
    case None => (d, Pass)
    case Some(j) =>
      var (p, o) := Pages.Render(d.pages[j], HostOf(d), w.pages);
      (d.(pages := d.pages[j := p]), o)
  }

  /**
    The first render of a deck's current page pins every button that page had: afterwards
    exactly those buttons are sticky, and rendering again keeps that set.
  */
  lemma RenderPinsCurrentPage(d: Deck, w: DeckWorld, later: DeckWorld)
    requires AllAttached(d) && FindPage(d.pages, CurrentName(d)).Some?
    requires !d.pages[FindPage(d.pages, CurrentName(d)).value].everHelped
    ensures var j := FindPage(d.pages, CurrentName(d)).value;
            var d1 := Render(d, w).0;
            && StickyKeys(d1.pages[j].buttons) == d.pages[j].buttons.Keys
            && AllAttached(d1)
            && StickyKeys(Render(d1, later).0.pages[j].buttons) == d.pages[j].buttons.Keys
  {
    var j := FindPage(d.pages, CurrentName(d)).value;
    var d1 := Render(d, w).0;
    FirstRenderPinsButtons(d.pages[j], HostOf(d), w.pages);
    assert AllAttached(d1) by {
      forall m | 0 <= m < |d1.pages| ensures d1.pages[m].attached {
        if m != j { assert d1.pages[m] == d.pages[m]; }
      }
    }
    assert FindPage(d1.pages, CurrentName(d1)) == Some(j) by {
      assert d1.pages[j].name == d.pages[j].name;
    }
    LaterRenderKeepsPins(d1.pages[j], HostOf(d1), later.pages);
  }

  /**
    The deferred button sync of `Trigger`: button `i` of page `j` is synced again as a
    ready button; nothing else changes.
  */
  function Resync(d: Deck, j: nat, i: int, w: World): (r: Deck)
    requires j < |d.pages| && i in d.pages[j].buttons
    ensures r.page == d.page && |r.pages| == |d.pages|
    ensures forall m :: 0 <= m < |d.pages| && m != j ==> r.pages[m] == d.pages[m]
    ensures r.pages[j].buttons.Keys == d.pages[j].buttons.Keys
    ensures forall k :: k in d.pages[j].buttons && k != i ==> r.pages[j].buttons[k] == d.pages[j].buttons[k]
    ensures SameIdentity(r.pages[j].buttons[i], d.pages[j].buttons[i]) && Styled(r.pages[j].buttons[i])
  {
    var p := d.pages[j];
    var b := p.buttons[i];
    var synced := SyncButton(b, DirOf(p.name, b.index, b, w), true, w.eval, w.fontLoads).0;
    d.(pages := d.pages[j := p.(buttons := p.buttons[i := synced])])
  }

  /** The button a press on `i` reaches, if any: on the current page, at key `i`, and ready. */
  predicate Reaches(d: Deck, i: int) {
    match FindPage(d.pages, CurrentName(d))
    case None => false
    case Some(j) =>
      i in d.pages[j].buttons
      && IsReady(d.pages[j].buttons[i].onPage, d.pages[j].attached, d.hasDevice)
  }

  /**
    `Deck.trigger` through `Page.trigger` to `Button.Trigger`: a press that reaches no ready
    button does nothing. Otherwise the evaluated action is dispatched and the button is
    synced again afterwards, whatever the outcome. After `page:` succeeds, that sync hits
    a button of a page the deck no longer holds, so it shows nowhere.
  */
  function Trigger(d: Deck, i: int, w: DeckWorld): (r: (Deck, Outcome<string>))
    ensures !Reaches(d, i) ==> r == (d, Pass)
  {
    match FindPage(d.pages, CurrentName(d))
    case None => (d, Pass)
    case Some(j) =>
      if i !in d.pages[j].buttons then (d, Pass)
      else
        var b := d.pages[j].buttons[i];
        if !IsReady(b.onPage, d.pages[j].attached, d.hasDevice) then (d, Pass)
        else
          match Dispatch(b.evaluatedAction)
          case Idle => (Resync(d, j, i, w.pages), Pass)
          case RunShell(c) => (Resync(d, j, i, w.pages), w.shell(c))
          case ShellWithoutArgument => (Resync(d, j, i, w.pages), Fail("Action 'shell' must be given an argument"))
          case SwitchPage(target) =>
            var (d2, o) := Sync(d.(page := target), w);
            if o.Fail? then (Resync(d2, j, i, w.pages), o) else (d2, o)
  }

  /** The action of the button a press reaches. */
  function ReachedAction(d: Deck, i: int): string
    requires Reaches(d, i)
  {
    d.pages[FindPage(d.pages, CurrentName(d)).value].buttons[i].evaluatedAction
  }

  /**
    Every press that reaches a ready button and does not switch pages ends with that
    button synced again, whether the action succeeded, failed, or was empty.
  */
  lemma TriggerAlwaysResyncs(d: Deck, i: int, w: DeckWorld)
    requires Reaches(d, i) && !Dispatch(ReachedAction(d, i)).SwitchPage?
    ensures Trigger(d, i, w).0 == Resync(d, FindPage(d.pages, CurrentName(d)).value, i, w.pages)
  {
  }

  /** `shell:` with a command returns the command's result; `shell` alone is an error. */
  lemma TriggerShell(d: Deck, i: int, w: DeckWorld)
    requires Reaches(d, i)
    ensures Dispatch(ReachedAction(d, i)).RunShell? ==> Trigger(d, i, w).1 == w.shell(Dispatch(ReachedAction(d, i)).command)
    ensures Dispatch(ReachedAction(d, i)).ShellWithoutArgument? ==> Trigger(d, i, w).1.Fail?
    ensures Dispatch(ReachedAction(d, i)).Idle? ==> Trigger(d, i, w).1.Pass?
  {
  }

  /** `page:X` selects page `X` and returns the deck sync's result. */
  lemma TriggerSwitchesPage(d: Deck, i: int, w: DeckWorld)
    requires Reaches(d, i) && Dispatch(ReachedAction(d, i)).SwitchPage?
    ensures Trigger(d, i, w).0.page == Dispatch(ReachedAction(d, i)).target
    ensures Trigger(d, i, w).1 == Sync(d.(page := Dispatch(ReachedAction(d, i)).target), w).1
  {
    var moved := d.(page := Dispatch(ReachedAction(d, i)).target);
    var (d2, o) := Sync(moved, w);
    assert Trigger(d, i, w).1 == o;
    assert Trigger(d, i, w).0.page == d2.page;
  }

  /** When the deck directory can be read, `page:X` leaves the deck holding freshly built pages. */
  lemma TriggerRebuildsPages(d: Deck, i: int, w: DeckWorld)
    requires Reaches(d, i) && Dispatch(ReachedAction(d, i)).SwitchPage? && w.pageDirs.Listed?
    ensures Trigger(d, i, w).0.pages == BuildPages(w.pageDirs.entries, HostOf(d), w.pages)
  {
    var moved := d.(page := Dispatch(ReachedAction(d, i)).target);
    assert HostOf(moved) == HostOf(d);
    assert Trigger(d, i, w) == Sync(moved, w);
  }
}

=== FILE: goliteral.dfy ===
/**
  The unescaping a helper value goes through: the value is wrapped in double quotes,
  read as a Go interpreted string literal (`constant.MakeFromLiteral`, which calls
  `strconv.Unquote`), and turned back into a string with `constant.StringVal`. An
  invalid literal yields an unknown constant, whose string value is empty.
*/
module GoLiteral {
  import opened Wrappers

  predicate IsOctal(c: char) {
    '0' <= c <= '7'
  }

  predicate IsHex(c: char) {
    ('0' <= c <= '9') || ('a' <= c <= 'f') || ('A' <= c <= 'F')
  }

  predicate AllHex(s: string) {
    forall i :: 0 <= i < |s| ==> IsHex(s[i])
  }

  function HexDigit(c: char): (d: nat)
    requires IsHex(c)
    ensures d < 16
  {
    if '0' <= c <= '9' then c as int - '0' as int
    else if 'a' <= c <= 'f' then c as int - 'a' as int + 10
    else c as int - 'A' as int + 10
  }

  function Pow16(n: nat): (p: nat)
    ensures p >= 1
  {
    if n == 0 then 1 else 16 * Pow16(n - 1)
  }

  /** The value of a run of hexadecimal digits, most significant first. */
  function HexValue(s: string): (v: nat)
    requires AllHex(s)
    ensures v < Pow16(|s|)
    decreases |s|
  {
    if |s| == 0 then 0 else HexValue(s[..|s| - 1]) * 16 + HexDigit(s[|s| - 1])
  }

  /** `utf8.ValidRune`: a Unicode scalar value (no surrogates, at most U+10FFFF). */
  predicate ValidRune(n: int) {
    (0 <= n < 0xD800) || (0xDFFF < n <= 0x10FFFF)
  }

  /**
    A `\x`, `\u` or `\U` escape: `width` hexadecimal digits after the letter at `s[0]`.
    `\x` denotes a single byte; `\u` and `\U` must denote a valid rune.
  */
  function HexEscape(s: string, width: nat, rune: bool): (r: Option<(char, nat)>)
    requires |s| >= 1
    requires width == 2 || width == 4 || width == 8
    requires !rune ==> width == 2
    ensures r.Some? ==> r.value.1 == 1 + width <= |s|
  {
    if |s| >= 1 + width && AllHex(s[1..1 + width]) then
      var v := HexValue(s[1..1 + width]);
      if !rune then
        assert v < 256 by { assert Pow16(2) == 256; }
        Some((v as char, 1 + width))
      else if ValidRune(v) then Some((v as char, 1 + width))
      else None
    else None
  }

  /**
    The escape sequence that follows a backslash inside a double-quoted literal
    (`strconv.UnquoteChar` with quote `"`): the character it denotes and how many
    characters after the backslash it uses. `\'` is refused inside double quotes.
  */
  function EscapeSequence(s: string): (r: Option<(char, nat)>)
    ensures r.Some? ==> 1 <= r.value.1 <= |s|
    ensures |s| > 0 && s[0] == 'n' ==> r == Some(('\n', 1))
    ensures |s| > 0 && s[0] == '\\' ==> r == Some(('\\', 1))
    ensures |s| > 0 && s[0] == '"' ==> r == Some(('"', 1))
    ensures |s| > 0 && s[0] == '\'' ==> r == None
  {
    if |s| == 0 then None
    else
      var c := s[0];
      if c == 'a' then Some((7 as char, 1))
      else if c == 'b' then Some((8 as char, 1))
      else if c == 'f' then Some((12 as char, 1))
      else if c == 'n' then Some(('\n', 1))
      else if c == 'r' then Some(('\r', 1))
      else if c == 't' then Some(('\t', 1))
      else if c == 'v' then Some((11 as char, 1))
      else if c == '\\' then Some(('\\', 1))
      else if c == '"' then Some(('"', 1))
      else if c == 'x' then HexEscape(s, 2, false)
      else if c == 'u' then HexEscape(s, 4, true)
      else if c == 'U' then HexEscape(s, 8, true)
      else if IsOctal(c) then
        if |s| >= 3 && IsOctal(s[1]) && IsOctal(s[2]) then
          var v := (c as int - '0' as int) * 64 + (s[1] as int - '0' as int) * 8 + (s[2] as int - '0' as int);
          if v <= 255 then Some((v as char, 3)) else None
        else None
      else None
  }

  /** A character that stands for itself inside a double-quoted literal. */
  predicate Plain(c: char) {
    c != '"' && c != '\\' && c != '\n'
  }

  predicate AllPlain(s: string) {
    forall i :: 0 <= i < |s| ==> Plain(s[i])
  }

  function Prepend(c: char, o: Option<string>): (r: Option<string>)
    ensures r.Some? <==> o.Some?
    ensures r.Some? ==> r.value == [c] + o.value
  {
    match o
    case None => None
    case Some(t) => Some([c] + t)
  }

  /**
    `strconv.Unquote("\"" + body + "\"")`: `None` when the literal is invalid, that is
    when `body` holds a bare `"`, a newline, or a malformed escape sequence.
  */
  function Unquote(body: string): (r: Option<string>)
    ensures r.Some? ==> |r.value| <= |body|
    decreases |body|
  {
    if |body| == 0 then Some("")
    else if !Plain(body[0]) && body[0] != '\\' then None
    else if body[0] != '\\' then
      Prepend(body[0], Unquote(body[1..]))
    else
      match EscapeSequence(body[1..])
      case None => None
      case Some((ch, n)) => Prepend(ch, Unquote(body[1 + n..]))
  }

  /** `constant.StringVal` of the parsed literal: the unquoted text, or `""` when invalid. */
  function StringVal(body: string): (r: string)
    ensures Unquote(body).None? ==> r == ""
    ensures Unquote(body).Some? ==> r == Unquote(body).value
  {
    Unquote(body).GetOr("")
  }

  /** The escaped form of one character inside a double-quoted literal. */
  function EscapeChar(c: char): (e: string)
    ensures Plain(c) ==> e == [c]
    ensures !Plain(c) ==> |e| == 2 && e[0] == '\\'
  {
    if c == '\\' then "\\\\"
    else if c == '"' then "\\\""
    else if c == '\n' then "\\n"
    else [c]
  }

  /** The body of a double-quoted literal denoting `s` (the inverse partner of `Unquote`). */
  function Escape(s: string): (e: string)
    ensures |e| >= |s|
    decreases |s|
  {
    if |s| == 0 then "" else EscapeChar(s[0]) + Escape(s[1..])
  }

  lemma UnquoteEscapedChar(c: char, rest: string)
    ensures Unquote(EscapeChar(c) + rest) == Prepend(c, Unquote(rest))
  {
    var body := EscapeChar(c) + rest;
    if Plain(c) {
      assert body[1..] == rest;
    } else {
      assert body[1..] == EscapeChar(c)[1..] + rest;
      assert body[2..] == rest;
    }
  }

  /** Unescaping an escaped string gives the string back, for every string. */
  lemma {:induction false} UnquoteEscape(s: string)
    ensures Unquote(Escape(s)) == Some(s)
    decreases |s|
  {
    if |s| > 0 {
      UnquoteEscape(s[1..]);
      UnquoteEscapedChar(s[0], Escape(s[1..]));
      assert s == [s[0]] + s[1..];
    }
  }

  lemma UnquotePlainHead(c: char, t: string)
    requires Plain(c)
    ensures Unquote([c] + t) == Prepend(c, Unquote(t))
  {
    assert ([c] + t)[1..] == t;
  }

  /** A run of plain characters passes through unescaping unchanged. */
  lemma {:induction false} UnquotePlainPrefix(a: string, rest: string)
    requires AllPlain(a)
    ensures Unquote(a + rest).Some? <==> Unquote(rest).Some?
    ensures Unquote(a + rest).Some? ==> Unquote(a + rest).value == a + Unquote(rest).value
    decreases |a|
  {
    if |a| == 0 {
      assert a + rest == rest;
    } else {
      assert a + rest == [a[0]] + (a[1..] + rest);
      UnquotePlainHead(a[0], a[1..] + rest);
      UnquotePlainPrefix(a[1..], rest);
      if Unquote(rest).Some? {
        var v := Unquote(rest).value;
        assert a + v == [a[0]] + (a[1..] + v);
      }
    }
  }

  /** Text without a quote, backslash or newline unescapes to itself. */
  lemma UnquotePlain(s: string)
    requires AllPlain(s)
    ensures Unquote(s) == Some(s)
  {
    UnquotePlainPrefix(s, "");
    assert s + "" == s;
  }

  /** A literal backslash-n in a helper value becomes a real line break. */
  lemma BackslashNIsNewline(a: string, b: string)
    requires AllPlain(a) && AllPlain(b)
    ensures StringVal(a + "\\n" + b) == a + "\n" + b
  {
    var body := "\\n" + b;
    assert body[1..] == "n" + b;
    assert body[2..] == b;
    UnquotePlain(b);
    assert Unquote(body) == Some("\n" + b);
    UnquotePlainPrefix(a, body);
    assert a + "\\n" + b == a + body;
  }

  /** A bare double quote makes the whole literal invalid, so the value becomes empty. */
  lemma BareQuoteEmpties(a: string, b: string)
    requires AllPlain(a)
    ensures StringVal(a + "\"" + b) == ""
  {
    UnquotePlainPrefix(a, "\"" + b);
    assert a + "\"" + b == a + ("\"" + b);
  }

}

=== FILE: helper_output.dfy ===
/**
  The interpreter for a page helper's standard output, applied to the page's button
  map one line at a time, in order: blank and `#` lines are skipped, `@` lines are
  directives, and any other line `index.path = value` assigns a property, creating
  the button when needed.
*/
module HelperOutput {
  import opened Wrappers
  import opened Text
  import opened GoLiteral
  import opened Buttons

  type ButtonMap = map<int, Button>

  /** The button indices a page of `count` buttons covers. */
  function InRange(count: int): (s: set<int>)
    ensures forall i :: i in s <==> 1 <= i <= count
    decreases count
  {
    if count < 1 then {} else InRange(count - 1) + {count}
  }

  /**
    `Page.Clear`: every index in `1..count` whose button is not sticky gets a fresh auto
    button; sticky buttons and keys outside the range are left alone.
  */
  function Clear(buttons: ButtonMap, count: int): (r: ButtonMap)
    ensures r.Keys == buttons.Keys + InRange(count)
    ensures forall i :: i in buttons && buttons[i].sticky ==> r[i] == buttons[i]
    ensures forall i :: i in buttons && !(1 <= i <= count) ==> r[i] == buttons[i]
    ensures forall i :: 1 <= i <= count && !(i in buttons && buttons[i].sticky) ==> r[i] == NewAutoButton(i)
  {
    map i | i in buttons.Keys + InRange(count) ::
      if 1 <= i <= count && !(i in buttons && buttons[i].sticky) then NewAutoButton(i) else buttons[i]
  }

  /** Clearing twice is clearing once: fresh auto buttons are not sticky, so they are replaced by themselves. */
  lemma ClearIdempotent(buttons: ButtonMap, count: int)
    ensures Clear(Clear(buttons, count), count) == Clear(buttons, count)
  {
  }

  /** How the interpreter reads one trimmed line. */
  datatype Line =
    | Ignored
    | Directive(name: string, rest: string)
    | Assignment(key: string, value: string)

  /**
    One line of output, trimmed: empty or `#` lines are ignored; `@name rest` is a
    directive whose name (up to the first space) is lower-cased; anything else is split
    at its first `=` into a trimmed key and value.
  */
  function Classify(raw: string): (l: Line)
    ensures AllSpace(raw) ==> l == Ignored
    ensures TrimSpace(raw) != "" && TrimSpace(raw)[0] == '#' ==> l == Ignored
    ensures l.Assignment? ==> '=' !in l.key
  {
    var line := TrimSpace(raw);
    if line == "" || line[0] == '#' then Ignored
    else if line[0] == '@' then
      var (d, rest) := SplitPair(line[1..], ' ');
      Directive(ToLower(d), rest)
    else
      var (k, v) := SplitPair(line, '=');
      TrimSpaceKeepsAbsent(k, '=');
      Assignment(TrimSpace(k), TrimSpace(v))
  }

  /**
    An assignment line `key = value` with a non-empty key: the button at the integer value
    of the key's first `.`-segment is created as an auto button when absent, gets its
    defaults, and records the unescaped value under the rest of the key. The defaults
    only fill zero styled fields, so an existing button keeps everything else it had.
    Every other button is left as it was. Stated through `SplitPair`, independently of
    the split.
  */
  function Assign(buttons: ButtonMap, key: string, value: string): (r: ButtonMap)
    ensures var idx := ParseInt(SplitPair(key, '.').0);
            && r.Keys == buttons.Keys + {idx}
            && (forall i :: i in buttons && i != idx ==> r[i] == buttons[i])
            && r[idx].props == (if idx in buttons then buttons[idx].props else map[])[SplitPair(key, '.').1 := StringVal(value)]
            && Styled(r[idx]) && r[idx].onPage
            && (idx !in buttons ==> r[idx].auto && !r[idx].sticky && r[idx].index == idx)
            && (idx in buttons ==> r[idx].auto == buttons[idx].auto && r[idx].sticky == buttons[idx].sticky
                                   && r[idx].index == buttons[idx].index && SameContent(r[idx], buttons[idx])
                                   && SameEvaluated(r[idx], buttons[idx]))
            && var base := if idx in buttons then buttons[idx] else NewAutoButton(idx);
               && SameStyle(r[idx], WithDefaults(base))
               && SameContent(r[idx], base) && SameEvaluated(r[idx], base)
               && r[idx].fontLoaded == base.fontLoaded
  {
    var segs := Split(key, '.');
    SplitPiecesBySplitPair(key, '.');
    JoinTailIsSplitPairRest(key, '.');
    var idx := ParseInt(segs[0]);
    var btn := if idx in buttons then buttons[idx] else NewAutoButton(idx);
    var b1 := WithDefaults(btn).(onPage := true);
    buttons[idx := SetProperty(b1, Join(segs[1..], '.'), StringVal(value))]
  }

  /** The effect of one line of helper output on the button map. */
  function Step(buttons: ButtonMap, count: int, raw: string): (r: ButtonMap)
    ensures buttons.Keys <= r.Keys
  {
    match Classify(raw)
    case Ignored => buttons
    case Directive(name, _) => if name == "clear" then Clear(buttons, count) else buttons
    case Assignment(k, v) => if k == "" then buttons else Assign(buttons, k, v)
  }

  /** The lines in order, each applied to the map the previous ones left. */
  function Run(buttons: ButtonMap, count: int, lines: seq<string>): (r: ButtonMap)
    ensures buttons.Keys <= r.Keys
    decreases |lines|
  {
    if |lines| == 0 then buttons else Run(Step(buttons, count, lines[0]), count, lines[1..])
  }

  /** The whole of the helper's standard output, split on line breaks. */
  function Interpret(buttons: ButtonMap, count: int, stdout: string): (r: ButtonMap)
    ensures buttons.Keys <= r.Keys
    ensures StickyKeys(r) == StickyKeys(buttons)
  {
    RunKeepsStickyKeys(buttons, count, Split(stdout, '\n'));
    Run(buttons, count, Split(stdout, '\n'))
  }

  /** Running two batches of lines is running the first, then the second on its result. */
  lemma {:induction false} RunAppend(buttons: ButtonMap, count: int, xs: seq<string>, ys: seq<string>)
    ensures Run(buttons, count, xs + ys) == Run(Run(buttons, count, xs), count, ys)
    decreases |xs|
  {
    if |xs| > 0 {
      assert (xs + ys)[0] == xs[0];
      assert (xs + ys)[1..] == xs[1..] + ys;
      RunAppend(Step(buttons, count, xs[0]), count, xs[1..], ys);
    } else {
      assert xs + ys == ys;
    }
  }

  /** A line that changes nothing: ignored, a directive other than `clear`, or an empty key. */
  predicate Inert(raw: string) {
    match Classify(raw)
    case Ignored => true
    case Directive(name, _) => name != "clear"
    case Assignment(k, _) => k == ""
  }

  /** An inert line leaves every map as it is. */
  lemma InertStep(buttons: ButtonMap, count: int, raw: string)
    requires Inert(raw)
    ensures Step(buttons, count, raw) == buttons
  {
  }

  /** Every line of the output is inert. */
  predicate AllInert(lines: seq<string>) {
    forall k :: 0 <= k < |lines| ==> Inert(lines[k])
  }

  /** Output made only of inert lines leaves the map unchanged. */
  lemma {:induction false} InertRun(buttons: ButtonMap, count: int, lines: seq<string>)
    requires AllInert(lines)
    ensures Run(buttons, count, lines) == buttons
    decreases |lines|
  {
    if |lines| > 0 {
      var head, tail := lines[0], lines[1..];
      assert Inert(head);
      InertStep(buttons, count, head);
      assert Run(buttons, count, lines) == Run(Step(buttons, count, head), count, tail);
      assert AllInert(tail) by {
        forall k | 0 <= k < |tail|
          ensures Inert(tail[k])
        {
          assert tail[k] == lines[k + 1];
        }
      }
      InertRun(buttons, count, tail);
    }
  }

  /** Removing an inert line from anywhere in the output changes nothing. */
  lemma DropInertLine(buttons: ButtonMap, count: int, pre: seq<string>, line: string, post: seq<string>)
    requires Inert(line)
    ensures Run(buttons, count, pre + [line] + post) == Run(buttons, count, pre + post)
  {
    RunAppend(buttons, count, pre + [line], post);
    RunAppend(buttons, count, pre, [line]);
    RunAppend(buttons, count, pre, post);
    var mid := Run(buttons, count, pre);
    InertStep(mid, count, line);
    assert Run(mid, count, [line]) == Run(Step(mid, count, line), count, []);
  }

  /** `@clear` acts on what the earlier lines built, and the later lines act on its result. */
  lemma ClearSplitsTheRun(buttons: ButtonMap, count: int, pre: seq<string>, line: string, post: seq<string>)
    requires Classify(line).Directive? && Classify(line).name == "clear"
    ensures Run(buttons, count, pre + [line] + post) == Run(Clear(Run(buttons, count, pre), count), count, post)
  {
    RunAppend(buttons, count, pre + [line], post);
    RunAppend(buttons, count, pre, [line]);
    var mid := Run(buttons, count, pre);
    assert Run(mid, count, [line]) == Run(Step(mid, count, line), count, []);
  }

  /** A string with no space character anywhere. */
  predicate NoSpace(w: string) {
    forall i :: 0 <= i < |w| ==> !IsSpace(w[i])
  }

  /** `@word`, for a word without spaces, is the directive named by the lower-cased word. */
  lemma ClassifyWord(w: string)
    requires w != "" && NoSpace(w)
    ensures Classify("@" + w) == Directive(ToLower(w), "")
  {
    var line := "@" + w;
    assert line[|line| - 1] == w[|w| - 1];
    assert line[1..] == w;
    assert ' ' !in w by {
      assert IsSpace(' ');
    }
    assert SplitPair(w, ' ') == (w, "");
  }

  /**
    A directive `@word` is matched on the lower-cased word: `@clear`, `@Clear` and
    `@CLEAR` all clear, and every other word leaves the map unchanged.
  */
  lemma DirectiveIgnoresCase(buttons: ButtonMap, count: int, w: string)
    requires w != "" && NoSpace(w)
    ensures ToLower(w) == "clear" ==> Step(buttons, count, "@" + w) == Clear(buttons, count)
    ensures ToLower(w) != "clear" ==> Step(buttons, count, "@" + w) == buttons
  {
    ClassifyWord(w);
  }

  /**
    `@preserve`, in any letter case, does nothing: the flag it raises is reset before the
    next line is read, so later assignments still apply.
  */
  lemma PreserveIsInert(buttons: ButtonMap, count: int, pre: seq<string>, w: string, post: seq<string>)
    requires NoSpace(w) && ToLower(w) == "preserve"
    ensures Run(buttons, count, pre + ["@" + w] + post) == Run(buttons, count, pre + post)
  {
    ClassifyWord(w);
    DropInertLine(buttons, count, pre, "@" + w, post);
  }

  /** Surrounding space never changes how a line is read. */
  lemma ClassifyTrims(raw: string)
    ensures Classify(TrimSpace(raw)) == Classify(raw)
  {
    TrimSpaceIdempotent(raw);
  }

  /** A line starting with `#` is a comment, whatever follows, and leaves the map unchanged. */
  lemma CommentIgnored(buttons: ButtonMap, count: int, text: string)
    ensures Classify("#" + text) == Ignored
    ensures Step(buttons, count, "#" + text) == buttons
  {
    var line := "#" + text;
    assert line[0] == '#' && !IsSpace('#');
    TrimSpaceKeepsHead(line);
  }

  /**
    `@word rest`, for a word without spaces and a rest without surrounding space, is the
    directive named by the lower-cased word, with the rest as its argument.
  */
  lemma ClassifyDirectiveOf(d: string, rest: string)
    requires d != "" && NoSpace(d) && rest != "" && Unpadded(rest)
    ensures Classify("@" + d + " " + rest) == Directive(ToLower(d), rest)
  {
    var line := "@" + d + " " + rest;
    assert line[0] == '@' && !IsSpace('@');
    assert line[|line| - 1] == rest[|rest| - 1];
    assert Unpadded(line);
    assert ' ' !in d by {
      assert IsSpace(' ');
    }
    assert line[1..] == d + [' '] + rest;
    SplitPairOfGlued(d, ' ', rest);
  }

  lemma GluedIsUnpadded(key: string, value: string)
    requires key != "" && Unpadded(key) && Unpadded(value)
    ensures Unpadded(key + "=" + value)
  {
    var line := key + "=" + value;
    assert line[0] == key[0];
    if |value| > 0 {
      assert line[|line| - 1] == value[|value| - 1];
    } else {
      assert line[|line| - 1] == '=';
    }
  }

  /** A key and a value without surrounding space, joined by `=`, read back as that assignment. */
  lemma ClassifyAssignment(key: string, value: string)
    requires key != "" && key[0] != '#' && key[0] != '@' && '=' !in key
    requires Unpadded(key) && Unpadded(value)
    ensures Classify(key + "=" + value) == Assignment(key, value)
  {
    var line := key + "=" + value;
    GluedIsUnpadded(key, value);
    assert line == key + ['='] + value;
    SplitPairOfGlued(key, '=', value);
    assert line[0] == key[0];
  }

  /** An assignment line with a non-empty key acts as `Assign`. */
  lemma StepAssignment(buttons: ButtonMap, count: int, key: string, value: string)
    requires key != "" && key[0] != '#' && key[0] != '@' && '=' !in key
    requires Unpadded(key) && Unpadded(value)
    ensures Step(buttons, count, key + "=" + value) == Assign(buttons, key, value)
  {
    ClassifyAssignment(key, value);
  }

  /** The key `n.prop` is a valid assignment key naming button `n` and property `prop`. */
  lemma NumberedKey(n: nat, prop: string)
    requires prop != "" && Unpadded(prop) && '=' !in prop
    ensures var key := FormatNat(n) + "." + prop;
            && key != "" && key[0] != '#' && key[0] != '@' && '=' !in key && Unpadded(key)
            && ParseInt(SplitPair(key, '.').0) == n && SplitPair(key, '.').1 == prop
  {
    var digits := FormatNat(n);
    var key := digits + "." + prop;
    assert IsDigit(digits[0]);
    assert '.' !in digits && '=' !in digits;
    assert key == digits + ['.'] + prop;
    assert key[0] == digits[0] && key[|key| - 1] == prop[|prop| - 1];
    SplitPairOfGlued(digits, '.', prop);
    ParseFormatRoundTrip(n);
  }

  /** An assignment stores the unescaped value under the property the key names. */
  lemma AssignStores(buttons: ButtonMap, key: string, value: string, idx: int, prop: string)
    requires idx == ParseInt(SplitPair(key, '.').0) && prop == SplitPair(key, '.').1
    ensures var r := Assign(buttons, key, value);
            idx in r && prop in r[idx].props && r[idx].props[prop] == StringVal(value)
  {
  }

  /** One line `n.prop=a\nb` on any map. */
  lemma StepSetsMultiLineValue(buttons: ButtonMap, count: int, n: nat, prop: string, a: string, b: string)
    requires prop != "" && Unpadded(prop) && '=' !in prop
    requires AllPlain(a) && AllPlain(b) && Unpadded(a + "\\n" + b)
    ensures var r := Step(buttons, count, FormatNat(n) + "." + prop + "=" + (a + "\\n" + b));
            n in r && prop in r[n].props && r[n].props[prop] == a + "\n" + b
  {
    var key := FormatNat(n) + "." + prop;
    var value := a + "\\n" + b;
    NumberedKey(n, prop);
    BackslashNIsNewline(a, b);
    StepAssignment(buttons, count, key, value);
    AssignStores(buttons, key, value, n, prop);
  }

  /**
    Helper output made of the single line `n.prop=a\nb`, with a literal backslash-n,
    gives button `n` the property `prop` holding `a`, a line break, then `b`.
  */
  lemma HelperSetsMultiLineValue(buttons: ButtonMap, count: int, n: nat, prop: string, a: string, b: string)
    requires prop != "" && Unpadded(prop) && '=' !in prop
    requires AllPlain(a) && AllPlain(b) && Unpadded(a + "\\n" + b)
    ensures var r := Run(buttons, count, [FormatNat(n) + "." + prop + "=" + (a + "\\n" + b)]);
            n in r && prop in r[n].props && r[n].props[prop] == a + "\n" + b
  {
    StepSetsMultiLineValue(buttons, count, n, prop, a, b);
  }

  /** After an `@clear`, in any letter case, the same line lands on the fresh button just the same. */
  lemma ClearThenSetsMultiLineValue(buttons: ButtonMap, count: int, n: nat, prop: string, a: string, b: string, w: string)
    requires prop != "" && Unpadded(prop) && '=' !in prop
    requires AllPlain(a) && AllPlain(b) && Unpadded(a + "\\n" + b)
    requires NoSpace(w) && ToLower(w) == "clear"
    ensures var r := Run(buttons, count, ["@" + w, FormatNat(n) + "." + prop + "=" + (a + "\\n" + b)]);
            n in r && prop in r[n].props && r[n].props[prop] == a + "\n" + b
  {
    var line := FormatNat(n) + "." + prop + "=" + (a + "\\n" + b);
    var lines := ["@" + w, line];
    assert lines[1..] == [line];
    assert Run(buttons, count, lines) == Run(Step(buttons, count, "@" + w), count, [line]);
    DirectiveIgnoresCase(buttons, count, w);
    HelperSetsMultiLineValue(Clear(buttons, count), count, n, prop, a, b);
  }

  /** The indices of the sticky buttons. */
  function StickyKeys(buttons: ButtonMap): (s: set<int>)
    ensures forall i :: i in s <==> i in buttons && buttons[i].sticky
  {
    set i | i in buttons && buttons[i].sticky
  }

  /** No line makes a button sticky or unsticks one: `@clear` skips sticky buttons, assignments keep the flag. */
  lemma StepKeepsStickyKeys(buttons: ButtonMap, count: int, raw: string)
    ensures StickyKeys(Step(buttons, count, raw)) == StickyKeys(buttons)
  {
  }

  /** The sticky buttons are the same before and after any helper output. */
  lemma {:induction false} RunKeepsStickyKeys(buttons: ButtonMap, count: int, lines: seq<string>)
    ensures StickyKeys(Run(buttons, count, lines)) == StickyKeys(buttons)
    decreases |lines|
  {
    if |lines| > 0 {
      StepKeepsStickyKeys(buttons, count, lines[0]);
      RunKeepsStickyKeys(Step(buttons, count, lines[0]), count, lines[1..]);
    }
  }

  /** One line keeps a sticky button in place, still sticky, at its index and with its auto flag. */
  lemma StepKeepsStickyButton(buttons: ButtonMap, count: int, raw: string, i: int)
    requires i in buttons && buttons[i].sticky
    ensures var r := Step(buttons, count, raw);
            i in r && r[i].sticky && r[i].index == buttons[i].index && r[i].auto == buttons[i].auto
  {
  }

  /** A sticky button stays in the map and stays sticky through any helper output. */
  lemma {:induction false} RunKeepsSticky(buttons: ButtonMap, count: int, lines: seq<string>, i: int)
    requires i in buttons && buttons[i].sticky
    ensures var r := Run(buttons, count, lines);
            i in r && r[i].sticky && r[i].index == buttons[i].index && r[i].auto == buttons[i].auto
    decreases |lines|
  {
    if |lines| > 0 {
      var next := Step(buttons, count, lines[0]);
      StepKeepsStickyButton(buttons, count, lines[0], i);
      assert Run(buttons, count, lines) == Run(next, count, lines[1..]);
      RunKeepsSticky(next, count, lines[1..], i);
    }
  }
}

=== FILE: pages.dfy ===
/**
  A page of buttons: its helper run, its data sources, the reconciliation of its button
  slots against the deck's button count, its refresh rule, and its first render, where
  the buttons configured before the helper ever ran are pinned as sticky.
*/
module Pages {
  import opened Wrappers
  import opened Text
  import opened Buttons
  import opened HelperOutput

  /** One configured data source (`HttpConfig` or `ShellConfig`): its `id` and what it asks for. */
  datatype Request = Request(id: string, spec: string)

  /** The `data` section of a page: HTTP sources, command sources and literal values. */
  datatype DataConfig = DataConfig(http: seq<Request>, exec: seq<Request>, literal: seq<Request>)

  /**
    What one data request yields: a decoded value or an error. `None` is a nil value,
    which only a command source can give (for a JSON null); an HTTP source always
    returns a reference to its decoded value (data_http.go:55), so its null is stored.
  */
  datatype FetchResult = Fetched(value: Option<string>) | FetchFailed(error: string)

  /** What running the helper script yields: its standard output or an error. */
  datatype HelperRun = Ran(stdout: string) | RunFailed(error: string)

  /** What a page reads from the deck it belongs to. */
  datatype Host = Host(count: int, hasDevice: bool, helpers: map<string, string>, sources: map<string, string>)

  /**
    Everything the program reads from outside: template evaluation, font loading, the
    `state` file and the glob of a button directory (by page, button index and evaluated
    state), the helper process, the data requests, and the clock.
  */
  datatype World = World(
    eval: string -> Option<string>,
    fontLoads: string -> bool,
    stateLine: (string, int, string) -> Option<string>,
    listing: (string, int, string) -> Option<seq<FileEntry>>,
    runHelper: (string, string, map<string, string>) -> HelperRun,
    fetch: Request -> FetchResult,
    now: int)

  /**
    A page: `attached` says whether it points back to a deck, `lastSyncedAt` is `None`
    while it holds the zero time, and `refresh` is the already parsed refresh interval.
  */
  datatype Page = Page(
    name: string,
    dataConfig: DataConfig,
    buttons: ButtonMap,
    helper: string,
    refresh: int,
    attached: bool,
    everHelped: bool,
    everSynced: bool,
    lastSyncedAt: Option<int>,
    data: map<string, string>,
    helpRunning: bool)

  /** The page a deck builds for one of its page directories. */
  function NewPage(name: string): (p: Page)
    ensures p.name == name && p.attached && p.helper == "" && p.buttons == map[]
    ensures p.refresh == 0 && p.data == map[] && p.dataConfig == DataConfig([], [], [])
    ensures !p.everHelped && !p.everSynced && p.lastSyncedAt.None? && !p.helpRunning
  {
    Page(name, DataConfig([], [], []), map[], "", 0, true, false, false, None, map[], false)
  }

  /** The fields no operation here changes. */
  predicate SameSettings(a: Page, b: Page) {
    a.name == b.name && a.dataConfig == b.dataConfig && a.helper == b.helper
    && a.refresh == b.refresh && a.attached == b.attached
  }

  // ---------------------------------------------------------------------------
  // Refresh rule

  /**
    `shouldSync`: a page never synced must sync; otherwise it syncs only when a positive
    refresh interval has strictly elapsed since the last sync.
  */
  predicate ShouldSync(lastSyncedAt: Option<int>, refresh: int, now: int) {
    match lastSyncedAt
    case None => true
    case Some(t) => refresh > 0 && now - t > refresh
  }

  /** Once due, a sync stays due as time goes on. */
  lemma ShouldSyncMonotone(last: Option<int>, refresh: int, now: int, later: int)
    requires now <= later && ShouldSync(last, refresh, now)
    ensures ShouldSync(last, refresh, later)
  {
  }

  // ---------------------------------------------------------------------------
  // Page data

  /** `DataConfig.Doables`: the HTTP sources then the command sources; literal values are not requests. */
  function Doables(c: DataConfig): (r: seq<Request>)
    ensures |r| == |c.http| + |c.exec|
    ensures forall k :: 0 <= k < |c.http| ==> r[k] == c.http[k]
    ensures forall k :: 0 <= k < |c.exec| ==> r[|c.http| + k] == c.exec[k]
  {
    c.http + c.exec
  }

  /** The key a request's value is stored under: its `id`, or `data<i>` when that is empty. */
  function EffectiveKey(req: Request, i: int): (k: string)
    ensures req.id != "" ==> k == req.id
    ensures req.id == "" ==> k == "data" + FormatInt(i)
  {
    if req.id != "" then req.id else "data" + FormatInt(i)
  }

  /** Two requests without an `id` never share a key. */
  lemma FallbackKeysDistinct(a: Request, i: int, b: Request, j: int)
    requires a.id == "" && b.id == "" && i != j
    ensures EffectiveKey(a, i) != EffectiveKey(b, j)
  {
    var ka := EffectiveKey(a, i);
    var kb := EffectiveKey(b, j);
    if ka == kb {
      assert ka[4..] == FormatInt(i);
      assert kb[4..] == FormatInt(j);
      ParseFormatRoundTrip(i);
      ParseFormatRoundTrip(j);
    }
  }

  /** Request `j` succeeded with a non-null value stored under `k`. */
  predicate Writes(fetch: Request -> FetchResult, req: Request, j: int, k: string) {
    fetch(req).Fetched? && fetch(req).value.Some? && EffectiveKey(req, j) == k
  }

  /** The requests from `i` on all succeed. */
  predicate AllFetched(fetch: Request -> FetchResult, reqs: seq<Request>, i: nat)
    requires i <= |reqs|
  {
    forall j :: i <= j < |reqs| ==> fetch(reqs[j]).Fetched?
  }

  /**
    The loop of `syncData` from request `i` on: each non-null value is stored under its
    key, and a failing request aborts the loop, keeping what the earlier requests stored.
  */
  function FetchFrom(data: map<string, string>, reqs: seq<Request>, i: nat, fetch: Request -> FetchResult)
    : (r: (map<string, string>, Outcome<string>))
    requires i <= |reqs|
    ensures data.Keys <= r.0.Keys
    ensures r.1.Pass? <==> AllFetched(fetch, reqs, i)
    ensures forall k :: k in data && (forall j :: i <= j < |reqs| ==> !Writes(fetch, reqs[j], j, k)) ==> r.0[k] == data[k]
    decreases |reqs| - i
  {
    if i == |reqs| then (data, Pass)
    else
      match fetch(reqs[i])
      case FetchFailed(e) => (data, Fail("request " + FormatInt(i) + ": " + e))
      case Fetched(None) => FetchFrom(data, reqs, i + 1, fetch)
      case Fetched(Some(v)) => FetchFrom(data[EffectiveKey(reqs[i], i) := v], reqs, i + 1, fetch)
  }

  /** A failed loop reports its first failing request `j` as `request <j>: <error>`. */
  lemma {:induction false} FetchFailureReported(data: map<string, string>, reqs: seq<Request>, i: nat,
                                                fetch: Request -> FetchResult) returns (j: nat)
    requires i <= |reqs| && FetchFrom(data, reqs, i, fetch).1.Fail?
    ensures i <= j < |reqs| && fetch(reqs[j]).FetchFailed?
    ensures forall m :: i <= m < j ==> fetch(reqs[m]).Fetched?
    ensures FetchFrom(data, reqs, i, fetch).1.error == "request " + FormatInt(j) + ": " + fetch(reqs[j]).error
    decreases |reqs| - i
  {
    match fetch(reqs[i])
    case FetchFailed(e) =>
      j := i;
    case Fetched(None) =>
      j := FetchFailureReported(data, reqs, i + 1, fetch);
    case Fetched(Some(v)) =>
      j := FetchFailureReported(data[EffectiveKey(reqs[i], i) := v], reqs, i + 1, fetch);
  }

  /** When every request succeeds, the last one writing a key decides its value. */
  lemma {:induction false} LastWriteWins(data: map<string, string>, reqs: seq<Request>, i: nat,
                                         fetch: Request -> FetchResult, j: nat, k: string)
    requires i <= j < |reqs| && AllFetched(fetch, reqs, i)
    requires Writes(fetch, reqs[j], j, k)
    requires forall m :: j < m < |reqs| ==> !Writes(fetch, reqs[m], m, k)
    ensures k in FetchFrom(data, reqs, i, fetch).0
    ensures FetchFrom(data, reqs, i, fetch).0[k] == fetch(reqs[j]).value.value
    decreases |reqs| - i
  {
    var next := if fetch(reqs[i]).value.Some? then data[EffectiveKey(reqs[i], i) := fetch(reqs[i]).value.value] else data;
    assert FetchFrom(data, reqs, i, fetch) == FetchFrom(next, reqs, i + 1, fetch);
    if i < j {
      LastWriteWins(next, reqs, i + 1, fetch, j, k);
    } else {
      assert k in next && next[k] == fetch(reqs[j]).value.value;
      assert forall m :: i + 1 <= m < |reqs| ==> !Writes(fetch, reqs[m], m, k);
    }
  }

  /**
    `syncData`: the deck's data sources are copied into the page data, then the page's
    requests are run in order.
  */
  function SyncData(p: Page, host: Host, w: World): (r: (map<string, string>, Outcome<string>))
    ensures p.data.Keys + host.sources.Keys <= r.0.Keys
    ensures r.1.Pass? <==> AllFetched(w.fetch, Doables(p.dataConfig), 0)
    ensures forall k :: k in host.sources && (forall j :: 0 <= j < |Doables(p.dataConfig)| ==> !Writes(w.fetch, Doables(p.dataConfig)[j], j, k))
                        ==> r.0[k] == host.sources[k]
  {
    FetchFrom(p.data + host.sources, Doables(p.dataConfig), 0, w.fetch)
  }

  /** The key a `key=value` pair sets: the trimmed text before its first `=`. */
  function PairKey(pair: string): string {
    SplitPairTrimSpace(pair, '=').0
  }

  /** The non-empty keys the pairs name. */
  function PairKeys(pairs: seq<string>): (ks: set<string>)
    ensures "" !in ks
    decreases |pairs|
  {
    if |pairs| == 0 then {}
    else (if PairKey(pairs[0]) != "" then {PairKey(pairs[0])} else {}) + PairKeys(pairs[1..])
  }

  /** One `key=value` pair: a non-empty key is set to `valfn` of the data, the key and the value. */
  function SetPair(data: map<string, string>, pair: string,
                   valfn: (map<string, string>, string, string) -> string): (r: map<string, string>)
    ensures PairKey(pair) == "" ==> r == data
    ensures PairKey(pair) != "" ==> r == data[PairKey(pair) := valfn(data, PairKey(pair), SplitPairTrimSpace(pair, '=').1)]
  {
    var (k, v) := SplitPairTrimSpace(pair, '=');
    if k != "" then data[k := valfn(data, k, v)] else data
  }

  /**
    `setDataFromArgLine` for the given pairs: each `key=value` pair, split at its first
    `=` and trimmed, sets the key to `valfn` of the data so far, the key and the value;
    pairs with an empty key are skipped.
  */
  function SetPairs(data: map<string, string>, pairs: seq<string>,
                    valfn: (map<string, string>, string, string) -> string): (r: map<string, string>)
    ensures r.Keys == data.Keys + PairKeys(pairs)
    ensures forall k :: k in data && k !in PairKeys(pairs) ==> r[k] == data[k]
    decreases |pairs|
  {
    if |pairs| == 0 then data
    else SetPairs(SetPair(data, pairs[0], valfn), pairs[1..], valfn)
  }

  /** A sequence is the part before position `n`, the element at `n`, and the rest. */
  lemma SplitAt<T>(s: seq<T>, n: nat)
    requires n < |s|
    ensures s == s[..n] + ([s[n]] + s[n + 1..])
  {
  }

  /** Applying two runs of pairs is applying the first, then the second on its result. */
  lemma {:induction false} SetPairsAppend(data: map<string, string>, xs: seq<string>, ys: seq<string>,
                                          valfn: (map<string, string>, string, string) -> string)
    ensures SetPairs(data, xs + ys, valfn) == SetPairs(SetPairs(data, xs, valfn), ys, valfn)
    decreases |xs|
  {
    if |xs| == 0 {
      assert xs + ys == ys;
    } else {
      assert (xs + ys)[0] == xs[0];
      assert (xs + ys)[1..] == xs[1..] + ys;
      SetPairsAppend(SetPair(data, xs[0], valfn), xs[1..], ys, valfn);
    }
  }

  /**
    A key keeps the value its last pair gave it: `valfn` applied to the data the earlier
    pairs left, the key, and that pair's trimmed value.
  */
  lemma LastPairWins(data: map<string, string>, pairs: seq<string>,
                     valfn: (map<string, string>, string, string) -> string, n: nat)
    requires n < |pairs| && PairKey(pairs[n]) != ""
    requires PairKey(pairs[n]) !in PairKeys(pairs[n + 1..])
    ensures var k := PairKey(pairs[n]);
            k in SetPairs(data, pairs, valfn)
            && SetPairs(data, pairs, valfn)[k] == valfn(SetPairs(data, pairs[..n], valfn), k, SplitPairTrimSpace(pairs[n], '=').1)
  {
    var before := SetPairs(data, pairs[..n], valfn);
    SplitAt(pairs, n);
    SetPairsAppend(data, pairs[..n], [pairs[n]] + pairs[n + 1..], valfn);
    SetPairsAppend(before, [pairs[n]], pairs[n + 1..], valfn);
    assert ([pairs[n]])[1..] == [];
    assert SetPairs(before, [pairs[n]], valfn) == SetPair(before, pairs[n], valfn);
  }

  /**
    `setDataFromArgLine`: without a value function nothing is set; otherwise the trimmed
    argument is split on `;` and each pair is applied in order.
  */
  function SetDataFromArgLine(data: map<string, string>, arg: string,
                              valfn: Option<(map<string, string>, string, string) -> string>): (r: map<string, string>)
    ensures valfn.None? ==> r == data
    ensures data.Keys <= r.Keys
    ensures valfn.Some? ==> r.Keys == data.Keys + PairKeys(Split(TrimSpace(arg), ';'))
    ensures valfn.Some? ==> forall k :: k in data && k !in PairKeys(Split(TrimSpace(arg), ';')) ==> r[k] == data[k]
  {
    match valfn
    case None => data
    case Some(f) => SetPairs(data, Split(TrimSpace(arg), ';'), f)
  }

  /**
    An argument line written as pairs joined by `;` sets each key from the last pair that
    names it: `valfn` of the data the earlier pairs left, the key, and that pair's value.
  */
  lemma ArgLineLastPairWins(data: map<string, string>, pairs: seq<string>,
                            valfn: (map<string, string>, string, string) -> string, n: nat)
    requires forall i :: 0 <= i < |pairs| ==> ';' !in pairs[i]
    requires Unpadded(Join(pairs, ';'))
    requires n < |pairs| && PairKey(pairs[n]) != ""
    requires PairKey(pairs[n]) !in PairKeys(pairs[n + 1..])
    ensures var r := SetDataFromArgLine(data, Join(pairs, ';'), Some(valfn));
            var k := PairKey(pairs[n]);
            k in r && r[k] == valfn(SetPairs(data, pairs[..n], valfn), k, SplitPairTrimSpace(pairs[n], '=').1)
  {
    SplitJoin(pairs, ';');
    LastPairWins(data, pairs, valfn, n);
  }

  // ---------------------------------------------------------------------------
  // Helper

  /** The helper is looked up and run: the page names one and it is not already running. */
  predicate HelperEngaged(p: Page) {
    p.helper != "" && !p.helpRunning
  }

  /** The deck holds a non-empty script under the page's helper name. */
  predicate ScriptFound(p: Page, host: Host) {
    p.helper in host.helpers && host.helpers[p.helper] != ""
  }

  /**
    `RunHelper`: nothing happens without a helper name, while the helper is running, or
    when the deck has no script for it. Otherwise the data is synced (its error is
    returned), the script runs with that data, and its output is interpreted against
    the button map. The running flag is back to its old value on return.
  */
  function RunHelper(p: Page, host: Host, w: World): (r: (Page, Outcome<string>))
    requires p.attached || !HelperEngaged(p)
    ensures SameSettings(r.0, p) && r.0.helpRunning == p.helpRunning
    ensures r.0.everHelped == p.everHelped && r.0.everSynced == p.everSynced && r.0.lastSyncedAt == p.lastSyncedAt
    ensures !(HelperEngaged(p) && ScriptFound(p, host)) ==> r == (p, Pass)
    ensures HelperEngaged(p) && ScriptFound(p, host) ==> r.0.data == SyncData(p, host, w).0
    ensures r.1.Fail? ==> r.0.buttons == p.buttons
    ensures r.1.Pass? && HelperEngaged(p) && ScriptFound(p, host) ==>
              var run := w.runHelper(p.name, host.helpers[p.helper], r.0.data);
              run.Ran? && r.0.buttons == Interpret(p.buttons, host.count, run.stdout)
  {
    if !HelperEngaged(p) || !ScriptFound(p, host) then (p, Pass)
    else
      var (data, o) := SyncData(p, host, w);
      if o.Fail? then (p.(data := data), o)
      else
        match w.runHelper(p.name, host.helpers[p.helper], data)
        case RunFailed(e) => (p.(data := data), Fail(e))
        case Ran(out) => (p.(data := data, buttons := Interpret(p.buttons, host.count, out)), Pass)
  }

  // ---------------------------------------------------------------------------
  // Sync

  /** The view of button `i`'s directory the sync reads. */
  function DirOf(name: string, i: int, b: Button, w: World): ButtonDir {
    ButtonDir(w.stateLine(name, i, b.evaluatedState), st => w.listing(name, i, st))
  }

  /** One button slot of `Sync`: the button's own sync, whose error is dropped. */
  function SyncSlot(b: Button, name: string, host: Host, w: World): (r: Button)
    ensures SameIdentity(r, b) && Styled(r)
  {
    SyncButton(b, DirOf(name, b.index, b, w), IsReady(b.onPage, true, host.hasDevice), w.eval, w.fontLoads).0
  }

  /** The button slot `i` holds before its sync: the existing button, or a new auto button, pointed at `i`. */
  function Slot(buttons: ButtonMap, i: int): (b: Button)
    ensures b.index == i && b.onPage
    ensures i in buttons ==> b.auto == buttons[i].auto && b.sticky == buttons[i].sticky && b.props == buttons[i].props
    ensures i !in buttons ==> b.auto && !b.sticky && b.props == map[]
  {
    (if i in buttons then buttons[i] else NewAutoButton(i)).(index := i, onPage := true)
  }

  /**
    The slot loop of `Sync` from index `i` to the deck's count: a missing button is
    created as an auto button, each button is pointed at its index and synced.
  */
  function SyncSlots(buttons: ButtonMap, i: int, count: int, sync: Button -> Button): (r: ButtonMap)
    ensures forall k :: k in r <==> k in buttons || i <= k <= count
    decreases count - i
  {
    if i > count then buttons
    else SyncSlots(buttons[i := sync(Slot(buttons, i))], i + 1, count, sync)
  }

  /** The slots the loop does not visit keep their buttons. */
  lemma {:induction false} SyncSlotsFrame(buttons: ButtonMap, i: int, count: int, sync: Button -> Button)
    ensures var r := SyncSlots(buttons, i, count, sync);
            forall k :: k in buttons && !(i <= k <= count) ==> r[k] == buttons[k]
    decreases count - i
  {
    if i <= count {
      SyncSlotsFrame(buttons[i := sync(Slot(buttons, i))], i + 1, count, sync);
    }
  }

  /** Every slot the loop visits holds the button that slot had before the loop, synced. */
  lemma {:induction false} SyncSlotsContent(buttons: ButtonMap, i: int, count: int, sync: Button -> Button)
    ensures var r := SyncSlots(buttons, i, count, sync);
            forall k :: i <= k <= count ==> r[k] == sync(Slot(buttons, k))
    decreases count - i
  {
    if i <= count {
      var next := buttons[i := sync(Slot(buttons, i))];
      assert SyncSlots(buttons, i, count, sync) == SyncSlots(next, i + 1, count, sync);
      SyncSlotsContent(next, i + 1, count, sync);
      SyncSlotsFrame(next, i + 1, count, sync);
      forall k | i < k <= count
        ensures Slot(next, k) == Slot(buttons, k)
      {
      }
    }
  }

  /**
    The slot loop of `Sync` over `1..count` for the page named `name`: the keys are the
    old ones and the slots, every slot holds its own button synced, and buttons outside
    the slots are untouched.
  */
  function FillSlots(buttons: ButtonMap, name: string, host: Host, w: World): (r: ButtonMap)
    ensures forall k :: k in r <==> k in buttons || 1 <= k <= host.count
    ensures forall k :: 1 <= k <= host.count ==> r[k] == SyncSlot(Slot(buttons, k), name, host, w)
    ensures forall k :: k in buttons && !(1 <= k <= host.count) ==> r[k] == buttons[k]
  {
    var sync := b => SyncSlot(b, name, host, w);
    SyncSlotsFrame(buttons, 1, host.count, sync);
    SyncSlotsContent(buttons, 1, host.count, sync);
    SyncSlots(buttons, 1, host.count, sync)
  }

  /**
    What slot `k` holds after its sync: a styled button at `k`, the existing button's flags
    and properties, or an auto button that is not sticky for a gap.
  */
  predicate SyncedSlot(buttons: ButtonMap, k: int, b: Button) {
    && b.index == k && b.onPage && Styled(b)
    && (k in buttons ==> b.sticky == buttons[k].sticky && b.auto == buttons[k].auto && b.props == buttons[k].props)
    && (k !in buttons ==> b.auto && !b.sticky && b.props == map[])
  }

  /** The sync of a slot gives what `SyncedSlot` describes. */
  lemma SlotSynced(buttons: ButtonMap, k: int, name: string, host: Host, w: World)
    ensures SyncedSlot(buttons, k, SyncSlot(Slot(buttons, k), name, host, w))
  {
  }

  /**
    After the slot loop every slot holds a styled button at its index, every button keeps
    its flags and properties, and gaps hold auto buttons that are not sticky.
  */
  lemma FillSlotsKeepsButtons(buttons: ButtonMap, name: string, host: Host, w: World)
    ensures var r := FillSlots(buttons, name, host, w);
            && (forall k :: 1 <= k <= host.count ==> r[k].index == k && r[k].onPage && Styled(r[k]))
            && (forall k :: k in buttons ==>
                  r[k].sticky == buttons[k].sticky && r[k].auto == buttons[k].auto && r[k].props == buttons[k].props)
            && (forall k :: 1 <= k <= host.count && k !in buttons ==> r[k].auto && !r[k].sticky && r[k].props == map[])
  {
    var r := FillSlots(buttons, name, host, w);
    forall k | 1 <= k <= host.count
      ensures SyncedSlot(buttons, k, r[k])
    {
      SlotSynced(buttons, k, name, host, w);
    }
    forall k | k in buttons
      ensures r[k].sticky == buttons[k].sticky && r[k].auto == buttons[k].auto && r[k].props == buttons[k].props
    {
      if 1 <= k <= host.count {
        assert SyncedSlot(buttons, k, r[k]);
      }
    }
  }

  /**
    `Page.Sync`: a page without a deck fails. Otherwise the helper runs (its error is only
    logged), every slot `1..count` is filled and synced, and the sync time is recorded.
  */
  function Sync(p: Page, host: Host, w: World): (r: (Page, Outcome<string>))
    ensures !p.attached ==> r == (p, Fail("cannot sync page: no deck specified"))
    ensures p.attached ==> r.1.Pass? && r.0.lastSyncedAt == Some(w.now)
    ensures SameSettings(r.0, p) && r.0.helpRunning == p.helpRunning
    ensures r.0.everHelped == p.everHelped && r.0.everSynced == p.everSynced
    ensures p.attached ==> forall k :: 1 <= k <= host.count ==>
              k in r.0.buttons && r.0.buttons[k].index == k && Styled(r.0.buttons[k])
    ensures p.attached ==> var helped := RunHelper(p, host, w).0.buttons;
              && (forall k :: k in r.0.buttons <==> k in helped || 1 <= k <= host.count)
              && (forall k :: k in helped ==> r.0.buttons[k].sticky == helped[k].sticky && r.0.buttons[k].auto == helped[k].auto)
              && (forall k :: 1 <= k <= host.count && k !in helped ==> r.0.buttons[k].auto && !r.0.buttons[k].sticky)
  {
    if !p.attached then (p, Fail("cannot sync page: no deck specified"))
    else
      var h := RunHelper(p, host, w).0;
      FillSlotsKeepsButtons(h.buttons, h.name, host, w);
      (h.(buttons := FillSlots(h.buttons, h.name, host, w), lastSyncedAt := Some(w.now)), Pass)
  }

  /**
    The buttons the page held after its helper ran are kept by the sync: outside the slots
    unchanged, inside them with their flags and properties, and each slot holds its own
    button after that button's sync.
  */
  lemma SyncKeepsButtons(p: Page, host: Host, w: World)
    ensures p.attached ==>
              var helped := RunHelper(p, host, w).0.buttons;
              var r := Sync(p, host, w).0.buttons;
              && (forall k :: k in helped && !(1 <= k <= host.count) ==> r[k] == helped[k])
              && (forall k :: k in helped ==> r[k].props == helped[k].props)
              && (forall k :: 1 <= k <= host.count ==> r[k] == SyncSlot(Slot(helped, k), p.name, host, w))
  {
    if p.attached {
      var h := RunHelper(p, host, w).0;
      assert Sync(p, host, w).0.buttons == FillSlots(h.buttons, p.name, host, w);
      FillSlotsKeepsButtons(h.buttons, p.name, host, w);
    }
  }

  // ---------------------------------------------------------------------------
  // Render

  /** Every button flagged sticky. */
  function MarkSticky(buttons: ButtonMap): (r: ButtonMap)
    ensures r.Keys == buttons.Keys
    ensures forall i :: i in r ==> r[i] == buttons[i].(sticky := true)
  {
    map i | i in buttons :: buttons[i].(sticky := true)
  }

  /**
    Button `r` is button `b` redrawn at key `i`: pointed at that key and page, its text and
    action evaluated afresh with "" on a template error, its font loaded when none was
    cached and a name is set, and every other field, flag and property kept.
  */
  predicate Redrawn(r: Button, b: Button, i: int, w: World) {
    && r.index == i && r.onPage
    && r.sticky == b.sticky && r.auto == b.auto && r.props == b.props
    && SameStyle(r, b) && SameContent(r, b) && r.evaluatedState == b.evaluatedState
    && r.evaluatedText == w.eval(b.text).GetOr("")
    && r.evaluatedAction == w.eval(b.action).GetOr("")
    && r.fontLoaded == (b.fontLoaded || (b.fontName != "" && w.fontLoads(b.fontName)))
  }

  /** The drawing pass of `Render`: each button is pointed at its key and re-evaluated. */
  function Redraw(buttons: ButtonMap, w: World): (r: ButtonMap)
    ensures r.Keys == buttons.Keys
    ensures forall i :: i in r ==> r[i].index == i && r[i].onPage
    ensures forall i :: i in r ==> r[i].sticky == buttons[i].sticky && r[i].auto == buttons[i].auto
    ensures forall i :: i in r ==> SameStyle(r[i], buttons[i]) && SameContent(r[i], buttons[i])
    ensures forall i :: i in r && w.eval(buttons[i].text).None? ==> r[i].evaluatedText == ""
    ensures forall i :: i in r ==> Redrawn(r[i], buttons[i], i, w)
  {
    map i | i in buttons :: Regen(buttons[i].(index := i, onPage := true), w.eval, w.fontLoads)
  }

  /** The first half of `Render`: on the first render, the buttons are pinned and the helper runs once. */
  function FirstHelp(p: Page, host: Host, w: World): (r: Page)
    requires p.attached || p.everHelped || !HelperEngaged(p)
    ensures r.everHelped && SameSettings(r, p) && r.helpRunning == p.helpRunning
    ensures r.everSynced == p.everSynced && r.lastSyncedAt == p.lastSyncedAt
    ensures p.everHelped ==> r == p
  {
    if p.everHelped then p
    else RunHelper(p.(buttons := MarkSticky(p.buttons)), host, w).0.(everHelped := true)
  }

  /**
    `Page.Render`: the first render pins the existing buttons and runs the helper; the
    page syncs when it never did or when `ShouldSync` says so, a sync error being
    returned; then every button is redrawn.
  */
  function Render(p: Page, host: Host, w: World): (r: (Page, Outcome<string>))
    requires p.attached || p.everHelped || !HelperEngaged(p)
    ensures r.0.everHelped && SameSettings(r.0, p)
    ensures r.1.Fail? <==> !p.attached && (!p.everSynced || ShouldSync(p.lastSyncedAt, p.refresh, w.now))
    ensures p.attached ==> r.0.everSynced
    ensures p.attached && (!p.everSynced || ShouldSync(p.lastSyncedAt, p.refresh, w.now)) ==> r.0.lastSyncedAt == Some(w.now)
    ensures p.everSynced && !ShouldSync(p.lastSyncedAt, p.refresh, w.now) ==> r.0.lastSyncedAt == p.lastSyncedAt
  {
    var p1 := FirstHelp(p, host, w);
    if !p1.everSynced || ShouldSync(p1.lastSyncedAt, p1.refresh, w.now) then
      var (p2, o) := Sync(p1, host, w);
      if o.Fail? then (p2, o)
      else (p2.(everSynced := true, buttons := Redraw(p2.buttons, w)), Pass)
    else (p1.(buttons := Redraw(p1.buttons, w)), Pass)
  }

  /**
    A render that syncs a page at time `w.now` records that time, and a later render
    within the refresh interval does not sync again: it keeps the time, the data and
    every setting, and only redraws the buttons.
  */
  lemma NoResyncWithinInterval(p: Page, host: Host, w: World, later: World)
    requires p.attached && (!p.everSynced || ShouldSync(p.lastSyncedAt, p.refresh, w.now))
    requires later.now - w.now <= p.refresh || p.refresh <= 0
    ensures var q := Render(p, host, w).0;
            && q.lastSyncedAt == Some(w.now)
            && Render(q, host, later) == (q.(buttons := Redraw(q.buttons, later)), Pass)
  {
    var q := Render(p, host, w).0;
    assert !ShouldSync(q.lastSyncedAt, q.refresh, later.now);
  }

  /**
    Once a positive refresh interval has strictly passed since a render synced the page,
    the next render syncs it again and records the new time.
  */
  lemma ResyncAfterInterval(p: Page, host: Host, w: World, later: World)
    requires p.attached && (!p.everSynced || ShouldSync(p.lastSyncedAt, p.refresh, w.now))
    requires p.refresh > 0 && later.now - w.now > p.refresh
    ensures var q := Render(p, host, w).0;
            && q.lastSyncedAt == Some(w.now)
            && Render(q, host, later).0.lastSyncedAt == Some(later.now)
            && Render(q, host, later).1.Pass?
  {
    var q := Render(p, host, w).0;
    assert ShouldSync(q.lastSyncedAt, q.refresh, later.now);
  }

  // ---------------------------------------------------------------------------
  // Sticky buttons across a render

  /** The helper never changes which buttons are sticky. */
  lemma HelperKeepsStickyKeys(p: Page, host: Host, w: World)
    requires p.attached || !HelperEngaged(p)
    ensures StickyKeys(RunHelper(p, host, w).0.buttons) == StickyKeys(p.buttons)
  {
    var r := RunHelper(p, host, w);
    if HelperEngaged(p) && ScriptFound(p, host) && r.1.Pass? {
      var run := w.runHelper(p.name, host.helpers[p.helper], r.0.data);
      RunKeepsStickyKeys(p.buttons, host.count, Split(run.stdout, '\n'));
    }
  }

  /** A sync never changes which buttons are sticky: existing buttons keep the flag, new ones lack it. */
  lemma SyncKeepsStickyKeys(p: Page, host: Host, w: World)
    ensures StickyKeys(Sync(p, host, w).0.buttons) == StickyKeys(p.buttons)
  {
    if p.attached {
      HelperKeepsStickyKeys(p, host, w);
    }
  }

  /** Redrawing never changes which buttons are sticky. */
  lemma RedrawKeepsStickyKeys(buttons: ButtonMap, w: World)
    ensures StickyKeys(Redraw(buttons, w)) == StickyKeys(buttons)
  {
  }

  /** On the first render, every button the page had is pinned before the helper runs. */
  lemma FirstHelpPins(p: Page, host: Host, w: World)
    requires !p.everHelped && (p.attached || !HelperEngaged(p))
    ensures StickyKeys(FirstHelp(p, host, w).buttons) == p.buttons.Keys
  {
    var marked := p.(buttons := MarkSticky(p.buttons));
    assert StickyKeys(marked.buttons) == p.buttons.Keys;
    HelperKeepsStickyKeys(marked, host, w);
  }

  /** Syncing and redrawing leave the pinned set as the helper step left it. */
  lemma RenderKeepsFirstHelpPins(p: Page, host: Host, w: World)
    requires p.attached || p.everHelped || !HelperEngaged(p)
    ensures StickyKeys(Render(p, host, w).0.buttons) == StickyKeys(FirstHelp(p, host, w).buttons)
  {
    var p1 := FirstHelp(p, host, w);
    SyncKeepsStickyKeys(p1, host, w);
    var p2 := Sync(p1, host, w).0;
    RedrawKeepsStickyKeys(p1.buttons, w);
    RedrawKeepsStickyKeys(p2.buttons, w);
  }

  /**
    The first render pins every button the page had before it: afterwards exactly those
    buttons are sticky, so no `@clear` of this or any later helper run replaces them.
  */
  lemma FirstRenderPinsButtons(p: Page, host: Host, w: World)
    requires !p.everHelped && (p.attached || !HelperEngaged(p))
    ensures StickyKeys(Render(p, host, w).0.buttons) == p.buttons.Keys
  {
    FirstHelpPins(p, host, w);
    RenderKeepsFirstHelpPins(p, host, w);
  }

  /** After the first render the pinned set never changes again. */
  lemma LaterRenderKeepsPins(p: Page, host: Host, w: World)
    requires p.everHelped
    ensures StickyKeys(Render(p, host, w).0.buttons) == StickyKeys(p.buttons)
  {
    RenderKeepsFirstHelpPins(p, host, w);
  }

  /**
    A page a deck has just built syncs to exactly the slots `1..count`, each a fresh
    auto button pointed at its index, none sticky, with the defaults applied.
  */
  lemma FreshPageSync(name: string, host: Host, w: World)
    ensures var r := Sync(NewPage(name), host, w).0;
            && r.buttons.Keys == InRange(host.count)
            && (forall k :: k in r.buttons ==> r.buttons[k].index == k && r.buttons[k].auto && !r.buttons[k].sticky && Styled(r.buttons[k]))
            && r.lastSyncedAt == Some(w.now)
  {
    var p := NewPage(name);
    assert RunHelper(p, host, w).0.buttons == map[];
  }
}

=== FILE: text.dfy ===
/**
  The Go string helpers the core relies on (`strings.TrimSpace`, `strings.Split`,
  `strings.Join`, `strings.ToLower`, go-stockutil's `SplitPair`, `SplitPairTrimSpace`
  and `SplitPairTrailing`, and the integer conversion used for button indices and
  font sizes), over `string == seq<char>`, each with the facts the rest of the
  model needs.
*/
module Text {
  import opened Wrappers

  /** Go's `unicode.IsSpace`: the Latin-1 spaces plus the Unicode White_Space set. */
  predicate IsSpace(c: char) {
    var n := c as int;
    || n == 0x20 || (0x09 <= n <= 0x0D) || n == 0x85 || n == 0xA0
    || n == 0x1680 || (0x2000 <= n <= 0x200A) || n == 0x2028 || n == 0x2029
    || n == 0x202F || n == 0x205F || n == 0x3000
  }

  /** True iff every character of `s` is a space. */
  predicate AllSpace(s: string) {
    forall i :: 0 <= i < |s| ==> IsSpace(s[i])
  }

  /** Drops the leading spaces: what is left is a suffix that does not start with one. */
  function TrimLeft(s: string): (r: string)
    ensures |r| <= |s| && r == s[|s| - |r|..]
    ensures AllSpace(s[..|s| - |r|])
    ensures |r| == 0 || !IsSpace(r[0])
    decreases |s|
  {
    if |s| > 0 && IsSpace(s[0]) then TrimLeft(s[1..]) else s
  }

  /** Drops the trailing spaces: what is left is a prefix that does not end with one. */
  function TrimRight(s: string): (r: string)
    ensures |r| <= |s| && r == s[..|r|]
    ensures AllSpace(s[|r|..])
    ensures |r| == 0 || !IsSpace(r[|r| - 1])
    decreases |s|
  {
    if |s| > 0 && IsSpace(s[|s| - 1]) then
      var r := TrimRight(s[..|s| - 1]);
      assert s[|r|..] == s[..|s| - 1][|r|..] + [s[|s| - 1]];
      r
    else s
  }

  /** Neither starts nor ends with a space. */
  predicate Unpadded(s: string) {
    |s| == 0 || (!IsSpace(s[0]) && !IsSpace(s[|s| - 1]))
  }

  /** `r` is `s[i..j]`, and everything of `s` before `i` and after `j` is space. */
  predicate TrimmedAt(s: string, r: string, i: int, j: int) {
    0 <= i <= j <= |s| && r == s[i..j] && AllSpace(s[..i]) && AllSpace(s[j..])
  }

  /** A prefix `r` of a suffix `l` of `s`, with only spaces cut off at either end, is an infix of `s`. */
  lemma SpacedInfix(s: string, l: string, r: string)
    requires |l| <= |s| && l == s[|s| - |l|..] && AllSpace(s[..|s| - |l|])
    requires |r| <= |l| && r == l[..|r|] && AllSpace(l[|r|..])
    ensures exists i, j :: TrimmedAt(s, r, i, j)
  {
    var i := |s| - |l|;
    var j := i + |r|;
    assert r == s[i..j];
    assert s[j..] == l[|r|..];
    assert TrimmedAt(s, r, i, j);
  }

  /** Trimming both ends leaves an infix with only spaces around it. */
  lemma TrimBothInfix(s: string)
    ensures exists i, j :: TrimmedAt(s, TrimRight(TrimLeft(s)), i, j)
  {
    SpacedInfix(s, TrimLeft(s), TrimRight(TrimLeft(s)));
  }

  /** Trimming both ends leaves nothing exactly when the string is all spaces. */
  lemma TrimBothEmpty(s: string)
    ensures TrimRight(TrimLeft(s)) == "" <==> AllSpace(s)
  {
    var l := TrimLeft(s);
    var r := TrimRight(l);
    assert |l| > 0 ==> |r| > 0 by {
      if |r| == 0 {
        assert l[|r|..] == l;
      }
    }
    assert AllSpace(s) ==> l == "" by {
      if |l| > 0 {
        assert l[0] == s[|s| - |l|];
      }
    }
    assert l == "" ==> AllSpace(s) by {
      if l == "" {
        assert s[..|s|] == s;
      }
    }
  }

  /**
    `strings.TrimSpace`: the infix of `s` left once the leading and trailing spaces are
    removed, and nothing else.
  */
  function TrimSpace(s: string): (r: string)
    ensures |r| <= |s|
    ensures Unpadded(r)
    ensures r == "" <==> AllSpace(s)
    ensures Unpadded(s) ==> r == s
    ensures exists i, j :: TrimmedAt(s, r, i, j)
  {
    if Unpadded(s) then
      assert s == s[0..|s|] && s[..0] == [] && s[|s|..] == [];
      assert TrimmedAt(s, s, 0, |s|);
      s
    else
      TrimBothInfix(s);
      TrimBothEmpty(s);
      TrimRight(TrimLeft(s))
  }

  /** Trimming twice is trimming once. */
  lemma TrimSpaceIdempotent(s: string)
    ensures TrimSpace(TrimSpace(s)) == TrimSpace(s)
  {
  }

  /** A string that starts with a non-space character keeps that character first once trimmed. */
  lemma TrimSpaceKeepsHead(s: string)
    requires |s| > 0 && !IsSpace(s[0])
    ensures TrimSpace(s) != "" && TrimSpace(s)[0] == s[0]
  {
    var i, j :| TrimmedAt(s, TrimSpace(s), i, j);
    if i > 0 {
      assert s[..i][0] == s[0];
    }
    assert !AllSpace(s) by {
      assert !IsSpace(s[0]);
    }
  }

  /** Trimming only removes characters, so a character absent before is absent after. */
  lemma TrimSpaceKeepsAbsent(s: string, c: char)
    requires c !in s
    ensures c !in TrimSpace(s)
  {
    var l := TrimLeft(s);
    assert l == s[|s| - |l|..];
    assert TrimRight(l) == l[..|TrimRight(l)|];
  }

  /** The position of the first `c` in `s`, if any. */
  function IndexOf(s: string, c: char): (r: Option<nat>)
    ensures r.None? <==> c !in s
    ensures r.Some? ==> r.value < |s| && s[r.value] == c && c !in s[..r.value]
    decreases |s|
  {
    if |s| == 0 then None
    else if s[0] == c then Some(0)
    else
      match IndexOf(s[1..], c)
      case None => None
      case Some(i) =>
        assert s[..i + 1] == [s[0]] + s[1..][..i];
        Some(i + 1)
  }

  /** The position of the last `c` in `s`, if any. */
  function LastIndexOf(s: string, c: char): (r: Option<nat>)
    ensures r.None? <==> c !in s
    ensures r.Some? ==> r.value < |s| && s[r.value] == c && c !in s[r.value + 1..]
    decreases |s|
  {
    if |s| == 0 then None
    else if s[|s| - 1] == c then Some(|s| - 1)
    else
      match LastIndexOf(s[..|s| - 1], c)
      case None => None
      case Some(i) =>
        assert s[i + 1..] == s[..|s| - 1][i + 1..] + [s[|s| - 1]];
        Some(i)
  }

  /** In `a + [c] + b` with no `c` inside `a`, the first `c` is the separator. */
  lemma IndexOfSeparator(a: string, c: char, b: string)
    requires c !in a
    ensures IndexOf(a + [c] + b, c) == Some(|a|)
  {
    var s := a + [c] + b;
    var r := IndexOf(s, c);
    assert s[|a|] == c;
    assert forall k :: 0 <= k < r.value ==> s[..r.value][k] != c;
    assert forall k :: 0 <= k < |a| ==> s[k] == a[k];
  }

  /** In `a + [c] + b` with no `c` inside `b`, the last `c` is the separator. */
  lemma LastIndexOfSeparator(a: string, c: char, b: string)
    requires c !in b
    ensures LastIndexOf(a + [c] + b, c) == Some(|a|)
  {
    var s := a + [c] + b;
    assert s[|a|] == c;
    var i := LastIndexOf(s, c).value;
    OnlyTrailingSeparator(a, c, b, i);
  }

  /** The only `c` of `a + [c] + b` with no `c` after it is the separator. */
  lemma OnlyTrailingSeparator(a: string, c: char, b: string, i: nat)
    requires c !in b
    requires i < |a| + 1 + |b|
    requires (a + [c] + b)[i] == c && c !in (a + [c] + b)[i + 1..]
    ensures i == |a|
  {
    var s := a + [c] + b;
    var t := s[i + 1..];
    assert i <= |a| by {
      var u := s[|a| + 1..];
      assert u == b;
      assert forall k :: |a| < k < |s| ==> s[k] == u[k - |a| - 1];
    }
    assert i >= |a| by {
      assert s[|a|] == c;
      assert forall k :: i < k < |s| ==> s[k] == t[k - i - 1];
    }
  }

  /** `strings.Split` with a one-character separator: never empty, no piece holds the separator. */
  function Split(s: string, sep: char): (parts: seq<string>)
    ensures |parts| >= 1
    ensures forall i :: 0 <= i < |parts| ==> sep !in parts[i]
    decreases |s|
  {
    match IndexOf(s, sep)
    case None => [s]
    case Some(i) => [s[..i]] + Split(s[i + 1..], sep)
  }

  /** The total length of some strings. */
  function TotalLength(parts: seq<string>): nat {
    if |parts| == 0 then 0 else |parts[0]| + TotalLength(parts[1..])
  }

  /**
    `strings.Join` with a one-character separator: the pieces with one separator between
    each two, so the first piece leads and the separator follows it when there are more.
  */
  function Join(parts: seq<string>, sep: char): (s: string)
    ensures |parts| == 0 ==> s == ""
    ensures |parts| > 0 ==> |s| == TotalLength(parts) + |parts| - 1
    ensures |parts| > 0 ==> parts[0] <= s
    ensures |parts| > 1 ==> s[|parts[0]|] == sep
    decreases |parts|
  {
    if |parts| == 0 then ""
    else if |parts| == 1 then parts[0]
    else
      parts[0] + [sep] + Join(parts[1..], sep)
  }

  /** A piece put in front of at least one more is joined to them by one separator. */
  lemma JoinCons(a: string, rest: seq<string>, sep: char)
    requires |rest| >= 1
    ensures Join([a] + rest, sep) == a + [sep] + Join(rest, sep)
  {
    assert ([a] + rest)[1..] == rest;
  }

  /** Joining the pieces of a split gives back the original string. */
  lemma {:induction false} JoinSplit(s: string, sep: char)
    ensures Join(Split(s, sep), sep) == s
    decreases |s|
  {
    match IndexOf(s, sep)
    case None =>
    case Some(i) =>
      var rest := Split(s[i + 1..], sep);
      assert Split(s, sep) == [s[..i]] + rest;
      JoinSplit(s[i + 1..], sep);
      JoinCons(s[..i], rest, sep);
      assert s == s[..i] + [sep] + s[i + 1..];
  }

  /** Splitting a join of separator-free pieces gives back the pieces. */
  lemma {:induction false} SplitJoin(parts: seq<string>, sep: char)
    requires |parts| >= 1
    requires forall i :: 0 <= i < |parts| ==> sep !in parts[i]
    ensures Split(Join(parts, sep), sep) == parts
    decreases |parts|
  {
    if |parts| > 1 {
      var a := parts[0];
      var rest := Join(parts[1..], sep);
      var s := a + [sep] + rest;
      assert Join(parts, sep) == s;
      IndexOfSeparator(a, sep, rest);
      assert s[..|a|] == a;
      assert s[|a| + 1..] == rest;
      assert Split(s, sep) == [a] + Split(rest, sep);
      SplitJoin(parts[1..], sep);
      assert parts == [a] + parts[1..];
    }
  }

  /** go-stockutil `SplitPair`: the text before the first `sep` and everything after it. */
  function SplitPair(s: string, sep: char): (r: (string, string))
    ensures sep !in r.0
    ensures sep in s ==> s == r.0 + [sep] + r.1
    ensures sep !in s ==> r == (s, "")
  {
    match IndexOf(s, sep)
    case None => (s, "")
    case Some(i) =>
      assert s == s[..i] + [sep] + s[i + 1..];
      (s[..i], s[i + 1..])
  }

  /** `SplitPair` undoes gluing with the separator when the head has none. */
  lemma SplitPairOfGlued(a: string, sep: char, b: string)
    requires sep !in a
    ensures SplitPair(a + [sep] + b, sep) == (a, b)
  {
    var s := a + [sep] + b;
    IndexOfSeparator(a, sep, b);
    assert s[..|a|] == a;
    assert s[|a| + 1..] == b;
  }

  /** go-stockutil `SplitPairTrimSpace`: `SplitPair` with both halves trimmed. */
  function SplitPairTrimSpace(s: string, sep: char): (r: (string, string))
    ensures sep !in r.0
    ensures Unpadded(r.0) && Unpadded(r.1)
    ensures sep !in s ==> r == (TrimSpace(s), "")
  {
    var (a, b) := SplitPair(s, sep);
    TrimSpaceKeepsAbsent(a, sep);
    (TrimSpace(a), TrimSpace(b))
  }

  /** Two parts glued at a separator the first lacks split back into the two parts, trimmed. */
  lemma SplitPairTrimSpaceOfGlued(a: string, sep: char, b: string)
    requires sep !in a
    ensures SplitPairTrimSpace(a + [sep] + b, sep) == (TrimSpace(a), TrimSpace(b))
  {
    SplitPairOfGlued(a, sep, b);
  }

  /**
    go-stockutil `SplitPairTrailing`: the text before the last `sep` and everything after
    it; with no `sep` the whole string is the trailing half.
  */
  function SplitPairTrailing(s: string, sep: char): (r: (string, string))
    ensures sep !in r.1
    ensures sep in s ==> s == r.0 + [sep] + r.1
    ensures sep !in s ==> r == ("", s)
  {
    match LastIndexOf(s, sep)
    case None => ("", s)
    case Some(i) =>
      assert s == s[..i] + [sep] + s[i + 1..];
      (s[..i], s[i + 1..])
  }

  /** `SplitPairTrailing` undoes gluing with the separator when the tail has none. */
  lemma SplitPairTrailingOfGlued(a: string, sep: char, b: string)
    requires sep !in b
    ensures SplitPairTrailing(a + [sep] + b, sep) == (a, b)
  {
    var s := a + [sep] + b;
    LastIndexOfSeparator(a, sep, b);
    assert s[..|a|] == a;
    assert s[|a| + 1..] == b;
  }

  /** The first piece of a split is what `SplitPair` puts before the separator, and the
      second piece is what it puts before the next one. */
  lemma SplitPiecesBySplitPair(s: string, sep: char)
    ensures Split(s, sep)[0] == SplitPair(s, sep).0
    ensures sep in s ==> |Split(s, sep)| >= 2
    ensures sep in s ==> Split(s, sep)[1] == SplitPair(SplitPair(s, sep).1, sep).0
  {
  }

  /** The rest of a split, joined again, is what `SplitPair` puts after the separator. */
  lemma JoinTailIsSplitPairRest(s: string, sep: char)
    ensures Join(Split(s, sep)[1..], sep) == SplitPair(s, sep).1
  {
    match IndexOf(s, sep)
    case None =>
      assert Split(s, sep)[1..] == [];
    case Some(i) =>
      var rest := Split(s[i + 1..], sep);
      assert Split(s, sep) == [s[..i]] + rest;
      assert Split(s, sep)[1..] == rest;
      assert SplitPair(s, sep).1 == s[i + 1..];
      JoinSplit(s[i + 1..], sep);
  }

  /** `strings.ToLower` on one character, restricted to ASCII letters. */
  function LowerChar(c: char): (r: char)
    ensures 'A' <= c <= 'Z' ==> r as int == c as int + 32
    ensures !('A' <= c <= 'Z') ==> r == c
  {
    if 'A' <= c <= 'Z' then (c as int + 32) as char else c
  }

  /** `strings.ToLower`, restricted to ASCII letters. */
  function ToLower(s: string): (r: string)
    ensures |r| == |s|
    ensures forall i :: 0 <= i < |s| ==> r[i] == LowerChar(s[i])
  {
    seq(|s|, i requires 0 <= i < |s| => LowerChar(s[i]))
  }

  /** Lower-casing a lower-case string changes nothing. */
  lemma ToLowerIdempotent(s: string)
    ensures ToLower(ToLower(s)) == ToLower(s)
  {
  }

  predicate IsDigit(c: char) {
    '0' <= c <= '9'
  }

  /** A non-empty run of decimal digits. */
  predicate IsDigits(s: string) {
    |s| > 0 && forall i :: 0 <= i < |s| ==> IsDigit(s[i])
  }

  function DigitValue(c: char): (d: nat)
    requires IsDigit(c)
    ensures d < 10
  {
    c as int - '0' as int
  }

  function DigitChar(d: nat): (c: char)
    requires d < 10
    ensures IsDigit(c) && DigitValue(c) == d
  {
    ('0' as int + d) as char
  }

  /** The value of a string of decimal digits, most significant first. */
  function DigitsValue(s: string): nat
    requires forall i :: 0 <= i < |s| ==> IsDigit(s[i])
    decreases |s|
  {
    if |s| == 0 then 0 else DigitsValue(s[..|s| - 1]) * 10 + DigitValue(s[|s| - 1])
  }

  /**
    The integer conversion `typeutil.Int` applied to a button index or font size:
    an optionally signed run of decimal digits gives its value, anything else gives 0.
  */
  function ParseInt(s: string): (n: int)
    ensures !IsDigits(s) && !(|s| > 1 && (s[0] == '-' || s[0] == '+') && IsDigits(s[1..])) ==> n == 0
    ensures IsDigits(s) ==> n >= 0
  {
    if IsDigits(s) then DigitsValue(s) as int
    else if |s| > 1 && s[0] == '-' && IsDigits(s[1..]) then -(DigitsValue(s[1..]) as int)
    else if |s| > 1 && s[0] == '+' && IsDigits(s[1..]) then DigitsValue(s[1..])
    else 0
  }

  /** The decimal digits of `n`, most significant first, without leading zeros. */
  function FormatNat(n: nat): (s: string)
    ensures IsDigits(s)
    ensures |s| > 1 ==> s[0] != '0'
    decreases n
  {
    if n < 10 then [DigitChar(n)] else FormatNat(n / 10) + [DigitChar(n % 10)]
  }

  /** `fmt.Sprintf("%d", n)`. */
  function FormatInt(n: int): (s: string)
    ensures n >= 0 ==> IsDigits(s)
    ensures n < 0 ==> |s| > 1 && s[0] == '-' && IsDigits(s[1..])
  {
    if n < 0 then "-" + FormatNat(-n) else FormatNat(n)
  }

  lemma {:induction false} DigitsOfFormatNat(n: nat)
    ensures DigitsValue(FormatNat(n)) == n
    decreases n
  {
    var s := FormatNat(n);
    if n >= 10 {
      DigitsOfFormatNat(n / 10);
      assert s[..|s| - 1] == FormatNat(n / 10);
    }
  }

  /** Reading back a formatted integer gives the integer. */
  lemma ParseFormatRoundTrip(n: int)
    ensures ParseInt(FormatInt(n)) == n
  {
    if n < 0 {
      DigitsOfFormatNat(-n);
      assert FormatInt(n)[1..] == FormatNat(-n);
    } else {
      DigitsOfFormatNat(n);
    }
  }
}

=== FILE: wrappers.dfy ===
/** Failure-compatible result types shared by every module of the model. */
module Wrappers {

  /** A value that may be absent (a nil pointer or a missing map entry). */
  datatype Option<+T> = None | Some(value: T) {

    /** The carried value, or `default` when absent. */
    function GetOr(default: T): T {
      match this
      case Some(v) => v
      case None => default
    }
  }

  /** The outcome of an operation that returns only an error: `Pass` is a nil error. */
  datatype Outcome<+E> = Pass | Fail(error: E)
}
